=== FILE: README.md ===
# Position calculator: Dafny model

The repository holds three Tk desktop apps that size a leveraged trading position:

- the Nominalwert calculator (`nominalwert_rechner.py`);
- the Positionsrechner (`test.py`);
- Positionsrechner Pro (`positionsrechner_pro_settings.py`).

Each app reads an entry price, a loss budget (`max_loss`), a stop-loss percentage, a leverage, a fee side for entry and for exit, and three take-profit (TP) values. Its `calculate` method then shows:

- the nominal value, the margin and the units;
- the stop-loss (SL) price and the three TP prices;
- the fee amounts;
- the gross and the net P&L at the SL and at each TP.

The model covers that arithmetic and the code around it:

- the number parsers (`parse_num`) and the separator exchange of `format_num` / `format_money`;
- `fee_for`;
- the leverage slider callbacks and `_current_leverage`;
- the order in which `calculate` reads fields, checks them and fails.

All quantities are exact reals.

Modules, one per file:

- `base.dfy`, module `Base`: `Option` and `Result`.
- `text.dfy`, module `Text`: the Python string operations the code uses, each with its own semantics.
  - `strip`, `replace`, `split`, `"".join` and `lower` (ASCII only).
- `decimal.dfy`, module `Decimal`: `float()` of a plain decimal literal.
  - It returns the exact value of the literal, or an error.
- `number_format.dfy`, module `NumberFormat`: both `parse_num` functions and the `format_num` separator exchange.
- `rendering.dfy`, module `Rendering`: the text `f"{x:,.Nf}"` as a structured value.
  - That is a sign, a lead group, thousands groups and fraction digits.
  - The module also holds the round-trip lemmas between formatting and parsing.
- `fees.dfy`, module `Fees`: both `fee_for` variants and their defaults.
- `leverage.dfy`, module `Leverage`: the three slider callbacks, and the Pro step list with Python list indexing.
- `calculator.dfy`, module `Calculator`: checks, sizing, SL, TPs, fees and P&L.
  - The two sizing rules are kept apart by `Sizing`.
    - `FeeFree` is Nominalwert: `max_loss / (sl / 100)`.
    - `FeeInclusive` is both Positionsrechner apps: `max_loss / ((sl + fees) / 100)`.
- `form.dfy`, module `Form`: `calculate` of each app end to end, on the text of its widgets.

Facts about the code that the model keeps as they are:

- Validation checks only entry price > 0 and SL % > 0. The loss budget is never checked, and the leverage is not range-checked.
  - `Calculator.MaxLossUnchecked` states the budget part.
  - In Nominalwert a zero leverage fails only through Python's division by zero when the margin is computed.
  - In both Positionsrechner apps a zero leverage fails the same way. So does a zero `sl + fees`, which is the divisor of their sizing.
- Gross P&L at the SL is the same for Long and Short; it does not change sign (`Calculator.DirectionMirror`).
- Any direction text that does not lower-case to `long` is treated as Short. Any TP mode other than the exact text `R-Multiple` is treated as percent mode.

## Model

| member | source | states |
|---|---|---|
| Text.Strip | nominalwert_rechner.py:43-44 | `strip()` yields the empty text exactly when the input is all whitespace; otherwise the result neither starts nor ends with whitespace |
| Text.StripSlice | test.py:33 | `strip()` keeps one contiguous slice of the input and drops only whitespace before and after it |
| Text.StripCore | positionsrechner_pro_settings.py:33 | whitespace around a core that neither starts nor ends with whitespace is removed, and the core is kept intact |
| Text.ReplaceIsErase | test.py:33 | `replace(",", "")` deletes every occurrence of the character and keeps everything else in order |
| Text.JoinSplit | nominalwert_rechner.py:62 | joining the pieces of a split with nothing between them is the text without its separators |
| Text.SplitAtLast | nominalwert_rechner.py:58-62 | the last piece of a split is what follows the last separator; the other pieces are the split of what precedes it |
| Text.Lower | test.py:289 | `lower()` keeps the length and lower-cases each character on its own |
| Decimal.ToFloat | nominalwert_rechner.py:69 | `float()` succeeds exactly when the stripped text is a decimal literal, never on blank text, and fails with the text itself |
| Decimal.LiteralOfDecimal | nominalwert_rechner.py:69 | a literal `[-]digits[.digits]` reads as exactly the number its digits denote |
| Decimal.ForeignCharRejected | nominalwert_rechner.py:69 | in the modelled decimal-literal grammar, a literal that still holds a character other than digits, `.`, `+` or `-` (such as an unconverted `,`) is refused |
| NumberFormat.LocaleOf | nominalwert_rechner.py:46 | only the exact setting `german` selects the German convention |
| NumberFormat.ParseNum | nominalwert_rechner.py:41-44 | blank input reads as 0.0; the only failure is a `float()` refusal of non-blank input |
| NumberFormat.ParseNumUs | test.py:32-36 | input of only whitespace and commas is refused |
| NumberFormat.BlankOrCommasRejected | positionsrechner_pro_settings.py:32-36 | when stripping and deleting the commas leaves text of only whitespace, `float()` refuses that text as well |
| NumberFormat.UsCleanErasesCommas | nominalwert_rechner.py:65-67 | in US mode the only rewrite before `float()` is deleting every `,` from the stripped input |
| NumberFormat.UsParsersAgree | positionsrechner_pro_settings.py:32-36 | the Nominalwert US parser and the Positionsrechner parser give the same result, except on blank input, which one reads as 0.0 and the other refuses as empty |
| NumberFormat.GermanBothSeparators | nominalwert_rechner.py:48-50 | with both separators present, the German clean-up deletes every `.` and then turns every `,` into `.` |
| NumberFormat.GermanCommaOnly | nominalwert_rechner.py:51-55 | with commas only, the comma becomes the point exactly when there is one comma with at most three characters after it; otherwise the text is passed on unchanged |
| NumberFormat.GermanDotsOnly | nominalwert_rechner.py:57-64 | with dots only, a last segment of one to three characters keeps its dot as the point and loses every earlier dot; otherwise every dot is deleted |
| NumberFormat.GermanKeepsContent | nominalwert_rechner.py:46-64 | the German clean-up only deletes separators or turns one into the point; every other character survives, in order |
| NumberFormat.FormatNum | nominalwert_rechner.py:71-81 | German output is the US text with `,` and `.` exchanged character by character, provided the text holds no `T`; US output is the US text |
| NumberFormat.ChainIsSwap | nominalwert_rechner.py:76-77 | the three-step `replace` chain through `TEMP` is exactly the exchange of the two separators on any text without `T` |
| NumberFormat.SwapInvolution | nominalwert_rechner.py:77 | exchanging the separators twice restores the text |
| NumberFormat.FormatGermanTwice | nominalwert_rechner.py:73-78 | German formatting applied twice restores the US text |
| Rendering.Format | nominalwert_rechner.py:71-81 | `format_num` of a grouped rendering lays it out with `.` groups and `,` point in German, and with `,` groups and `.` point in US |
| Rendering.UsRoundTrip | nominalwert_rechner.py:41-81 | the US text of every rendering reads back as exactly its value, in the Nominalwert parser and in the Positionsrechner parser |
| Rendering.GermanRoundTrip | nominalwert_rechner.py:41-78 | German text reads back as its value except in two shapes: whole numbers with thousands groups read as a thousandth of their value, and ungrouped numbers with more than three decimals are refused |
| Rendering.GermanWholeMisread | nominalwert_rechner.py:57-61 | a German whole number with thousands groups, such as `1.234.567`, reads back as its value divided by 1000 |
| Rendering.GermanCommaCase | nominalwert_rechner.py:51-55 | an ungrouped German number reads back with up to three decimals and is refused with more |
| Rendering.FormatMoney | nominalwert_rechner.py:83-85 | two-decimal money text equals `format_num` with two decimals and reads back as its value in its own convention, and the US text also reads back in the Positionsrechner parser |
| Fees.FeeFor | nominalwert_rechner.py:1716-1721 | a side's fee is its saved setting when present and its default otherwise |
| Fees.NominalwertFee | nominalwert_rechner.py:1716-1721 | only the exact text `Maker` selects the maker fee (default 0.014); anything else selects the taker fee (default 0.042) |
| Fees.PositionsrechnerFee | test.py:278-282 | a side text that lower-cases to `maker` selects the maker fee (default 0.03); anything else selects the taker fee (default 0.07) |
| Fees.SideFolded | positionsrechner_pro_settings.py:274-276 | the maker side is chosen exactly when the text lower-cases to `maker` |
| Fees.FeeIgnoresOtherKeys | positionsrechner_pro_settings.py:275-276 | a side's fee depends on its own settings key only |
| Fees.SavedFeesReadBack | test.py:267-282 | fees saved under both keys are what `fee_for` returns afterwards |
| Fees.FoldedIgnoresCase | test.py:280-281 | the Positionsrechner side choice ignores letter case |
| Fees.SideVariants | nominalwert_rechner.py:1718 | worked example on four spellings: both variants agree on `Maker` and `Taker`; on `maker` and `MAKER` only the Positionsrechner picks the maker fee |
| Fees.ExactMakerIsFolded | test.py:278-282 | for every side text, the Nominalwert maker side is also the Positionsrechner maker side |
| Leverage.Trunc | test.py:241 | `int()` of a float rounds toward zero, for positive and negative values |
| Leverage.Clamp | nominalwert_rechner.py:1699 | `max(lo, min(v, hi))` lies in `lo..hi`, keeps values already inside and moves the others to the nearer bound |
| Leverage.SlideRounded | nominalwert_rechner.py:1693-1700 | the leverage is always in 1..125, is the nearest whole number to the slider position (halves round up) inside that range, and is the clamped current value when the text is not a number |
| Leverage.SlideTruncated | test.py:238-246 | the leverage is always in 1..125, is the whole part of the slider position inside that range, and is the clamped current value when the text is not a number |
| Leverage.SnapIndex | positionsrechner_pro_settings.py:236-242 | the index is always in 0..5 and is the nearest whole number to the slider position (halves round up) inside that range |
| Leverage.StepAt | positionsrechner_pro_settings.py:127 | indexing the step list succeeds exactly for -6..5 and then yields one of the six steps |
| Leverage.NegativeIndexWraps | positionsrechner_pro_settings.py:279 | a negative index selects the step six places higher |
| Leverage.CurrentLeverage | positionsrechner_pro_settings.py:278-279 | the Pro leverage exists exactly when the stored index is a valid list index; it is then the step at that index (counted from the end for a negative index), and at least 1 |
| Leverage.SnappedLeverageIsStep | positionsrechner_pro_settings.py:127-128 | whatever the slider reports, the Pro leverage ends as one of 1, 25, 50, 75, 100 or 125 |
| Leverage.StepsAreQuarters | positionsrechner_pro_settings.py:127 | step `i` is `max(1, 25 * i)` |
| Leverage.SlideRoundedMonotone | nominalwert_rechner.py:1696-1699 | moving the slider right never lowers the Nominalwert leverage |
| Leverage.SlideTruncatedMonotone | test.py:240-244 | moving the slider right never lowers the Positionsrechner leverage |
| Leverage.SnapIndexMonotone | positionsrechner_pro_settings.py:236-241 | moving the slider right never lowers the Pro step index |
| Leverage.WholePositionKept | test.py:240-245 | a slider resting on a whole leverage in 1..125 keeps it, in both the rounding and the truncating variant |
| Calculator.DirectionOf | nominalwert_rechner.py:1875 | Long exactly when the direction text lower-cases to `long` |
| Calculator.TpModeOf | test.py:311-312 | R-multiple mode exactly for the text `R-Multiple` |
| Calculator.Check | nominalwert_rechner.py:1881-1882 | a calculation proceeds exactly when entry > 0, SL % > 0 and both divisors are non-zero; the entry check comes first and the SL check second |
| Calculator.Size | test.py:299-308 | nominal × sizing % / 100 = budget, margin × leverage = nominal, units × entry = nominal, and SL distance = entry × SL % / 100 > 0, with the SL below entry for Long and above for Short; the fee percentage is entry fee + exit fee, the effective risk is SL % plus that, each fee amount is its percentage of the nominal, and total fees = nominal × (entry fee + exit fee) / 100 = entry fee amount + exit fee amount |
| Calculator.Calculate | nominalwert_rechner.py:1873-1931 | the result is an error exactly when a check fails, and then it is the first failing check; otherwise it is the position of the order |
| Calculator.BuildLosesBudget | nominalwert_rechner.py:1893-1928 | gross P&L at the SL is minus SL % of the nominal; that is the whole budget under fee-free sizing, and the net P&L is the whole budget under fee-inclusive sizing |
| Calculator.BuildTargets | test.py:310-336 | net = gross − total fees at every TP; an R-multiple TP earns `m` times the SL loss; a percent TP earns `p` % of the nominal |
| Calculator.LeverageOnlyMovesMargin | positionsrechner_pro_settings.py:295-330 | changing the leverage changes the margin and nothing else: prices and all P&L stay the same |
| Calculator.SizeIgnoresLeverage | nominalwert_rechner.py:1895-1899 | the size under another leverage differs only in the margin, which is nominal / leverage |
| Calculator.SameSizeSamePosition | positionsrechner_pro_settings.py:301-330 | orders whose sizes agree outside the margin have the same TP prices and the same P&L |
| Calculator.DirectionMirror | test.py:306-336 | Long and Short have the same nominal and units, SL and TP prices mirrored around the entry, and identical P&L at the SL and at each TP |
| Calculator.SizeMirror | test.py:307-308 | direction moves the SL to the other side of the entry at the same distance and changes nothing else in the size |
| Calculator.TargetsOnProfitSide | positionsrechner_pro_settings.py:310-314 | a positive TP value puts the TP above the entry for Long and below it for Short, in both TP modes |
| Calculator.FeesShrinkPosition | test.py:301-302 | with non-negative fees and budget, the fee-inclusive nominal never exceeds the fee-free one |
| Calculator.FeeFreeNetLoss | nominalwert_rechner.py:1919-1926 | under fee-free sizing the net loss at the SL is the budget plus the fees |
| Calculator.MaxLossUnchecked | nominalwert_rechner.py:1881-1882 | the budget takes no part in validation, and a negative budget gives a negative nominal |
| Calculator.LongScenario | test.py:287-336 | entry 50000, budget 10, SL 0.5 %, leverage 10, fees 0.02 % + 0.04 %, TPs at 1R, 2R and 3R: nominal 12500/7, margin 1250/7, SL 49750, TPs 50250, 50500 and 50750, net SL loss exactly 10 |
| Calculator.ZeroEntryScenario | positionsrechner_pro_settings.py:288 | a zero entry price is refused as not positive, whatever else the order holds |
| Form.LocaleOfChoice | nominalwert_rechner.py:1876 | German exactly when the format combobox text contains `Deutsch` |
| Form.CurrentOf | positionsrechner_pro_settings.py:278-279 | the Pro leverage exists exactly for a valid list index, is the step at that index and one of the six steps, and an invalid index is reported as such; in the other apps it is the stored value |
| Form.Fee | nominalwert_rechner.py:1884-1885 | Nominalwert prices each side with its own `fee_for` (exact `Maker`), the two Positionsrechner apps with theirs (case-folded) |
| Form.FormLocale | nominalwert_rechner.py:1876 | Nominalwert reads numbers in the locale its format combobox selects; the Positionsrechner apps always read US text |
| Form.OrderOf | test.py:289-298 | the order is Long exactly when the direction text lower-cases to `long`, carries the entry, budget, SL % and leverage read, and takes the entry fee from the entry side text and the exit fee from the exit side text |
| Form.ParseTargets | test.py:313-316 | the TP values are the three parsed fields in order; the first unreadable field, tp1 then tp2 then tp3, is the one reported, with its own parse error |
| Form.Evaluate | positionsrechner_pro_settings.py:283-314 | fields are read and reported in source order: an unreadable entry price, then budget, then SL %, then (Pro) an invalid step index, then a failed check, then the first unreadable TP field of the selected mode; a result needs every read field to parse |
| Form.RunIsCalculate | test.py:287-336 | once every field reads, `calculate` is the pure calculation on the values read, with its errors |
| Form.ChecksBeforeTargets | test.py:294-316 | a failed entry or SL check is reported whatever the TP fields hold |
| Form.InactiveModeIgnored | positionsrechner_pro_settings.py:305-314 | `calculate` gives the same outcome whatever the TP fields of the mode that is not selected hold |
| Form.BlankEntry | nominalwert_rechner.py:1877-1881 | a blank entry price is refused by the Positionsrechner apps as an empty number, and by Nominalwert, which reads it as 0, as not positive |
| Form.RunLosesBudget | positionsrechner_pro_settings.py:293-327 | every computed position loses exactly the budget at the SL: net of fees in both Positionsrechner apps, before fees in Nominalwert |
| Form.EvaluateWiring | positionsrechner_pro_settings.py:283-305 | every computed position uses the form's own inputs: margin × the leverage read = nominal, units × the entry read = nominal, the SL lies below the entry exactly when the direction text is `long`, and each fee amount is the nominal times the fee its own side text selects, / 100 |

## Left out

- Widgets, styles, layout, zoom, scroll hints, context menus, clipboard copy, `reset_inputs` and `_set_result`: presentation without computable behaviour.
  - Form fields enter the model as their text.
  - The displayed strings and labels are not modelled.
- `set_leverage` button handlers: they only store a fixed value in the slider variable.
- Settings persistence (`appdata_dir`, `load_settings`, `save_settings`, the save inside the slider callback): file I/O.
  - Settings are a map from key to number.
  - A non-numeric saved value, on which `float()` in `fee_for` would fail, is not modelled.
- Translations (`TRANSLATIONS`, `get_text`): a static lookup table.
- Python's float rendering `f"{x:,.Nf}"` and its rounding of doubles: a rendering is described by its digits (`Rendering.Rendered`).
  - Which rendering a given double produces is not modelled.
- IEEE double arithmetic: all quantities are exact reals, so no result is rounded.
  - Python's division by zero is modelled as the errors `ZeroEffectiveRisk` and `ZeroLeverage`.
- Decimal.ToFloat: models only plain decimal literals.
  - Exponents, `inf`/`nan`, underscores and non-ASCII digits, which Python's `float()` also accepts, are treated as refused.
- Leverage.SnapIndex: always snaps and stores the index. The Pro callback first looks up the parent of the focused widget, outside its `try`, and ends with an error when no widget has focus, leaving the stored index unchanged (positionsrechner_pro_settings.py:231). Widget focus is not modelled.
- Text.Lower: folds ASCII letters only, unlike Python's Unicode `lower()`.
- NumberFormat.FormatNum: states the separator exchange only for US text without the letter `T`.
  - A rendered number never holds that letter.
- The `(s or "")` guard of `parse_num` in `test.py`: a missing (`None`) field cannot occur in a model whose fields are strings.
- `_current_leverage` of Nominalwert and the Positionsrechner: it returns the stored slider value, and `Form.CurrentOf` passes that value through unchanged.
- `effective_pct` in the Nominalwert `calculate`: it is computed but never used.
- `create_standalone.py` and `web_local.py`: their formulas are JavaScript inside string literals, and they size differently.
- `setup.py` and `ctk_probe.py`: they contain no calculator logic.

=== FILE: base.dfy ===
/** Failure-carrying values shared by every module of the position calculator. */
module Base {

  /** An optional value: `None` where the program has nothing (a missing key, an unparsable string). */
  datatype Option<+T> = None | Some(value: T)

  /** The outcome of an operation that the program can abort with an exception. */
  datatype Result<+T, +E> = Ok(value: T) | Err(error: E)
}

=== FILE: calculator.dfy ===
/**
 * The arithmetic of `calculate`, shared by the three apps: validation,
 * position size, margin and units, the stop-loss (SL) price and distance,
 * three take-profit (TP) prices, fee amounts, and gross and net P&L at the
 * SL and at each TP. All quantities are exact reals.
 *
 * Two sizing rules exist. The Nominalwert calculator sizes the position so
 * that the SL move alone loses `maxLoss` (fees ignored); both
 * Positionsrechner variants size it so that SL move plus fees lose exactly
 * `maxLoss`.
 */
module Calculator {
  import opened Base
  import opened Text

  datatype Direction = Long | Short

  /** Anything other than a case variant of "long" is treated as Short. */
  function DirectionOf(choice: string): (d: Direction)
    ensures d == Long <==> Lower(choice) == "long"
  {
    if Lower(choice) == "long" then Long else Short
  }

  datatype TpMode = RMultiple | Percent

  /** Only the exact combobox text "R-Multiple" selects R multiples. */
  function TpModeOf(choice: string): (m: TpMode)
    ensures m == RMultiple <==> choice == "R-Multiple"
  {
    if choice == "R-Multiple" then RMultiple else Percent
  }

  datatype Sizing =
    | FeeFree       // Nominalwert: maxLoss / (sl / 100)
    | FeeInclusive  // Positionsrechner: maxLoss / ((sl + fees) / 100)

  /** Everything `calculate` knows before it reads the TP fields. Percentages
      are in percent (0.5 means half a percent). */
  datatype Order = Order(
    direction: Direction,
    entry: real,
    maxLoss: real,
    slPercent: real,
    leverage: real,
    entryFee: real,
    exitFee: real)

  /** Why `calculate` produced no result. The first two are the app's own
      checks; the other two are the divisions Python refuses. */
  datatype CalcError =
    | EntryPriceNotPositive
    | StopLossNotPositive
    | ZeroEffectiveRisk
    | ZeroLeverage

  datatype Sized = Sized(
    nominal: real,
    margin: real,
    units: real,
    slPrice: real,
    slDistance: real,
    totalFeePercent: real,
    effectiveRiskPercent: real,
    entryFeeAmount: real,
    exitFeeAmount: real,
    totalFees: real)

  function TotalFeePercent(o: Order): real {
    o.entryFee + o.exitFee
  }

  /** The percentage of the nominal value the position is sized to lose. */
  function SizingPercent(o: Order, sizing: Sizing): real {
    match sizing
    case FeeFree => o.slPercent
    case FeeInclusive => o.slPercent + TotalFeePercent(o)
  }

  /** The checks of `calculate`, in the order the code meets them. */
  function Check(o: Order, sizing: Sizing): (r: Option<CalcError>)
    ensures r.None? <==>
      o.entry > 0.0 && o.slPercent > 0.0 && SizingPercent(o, sizing) != 0.0 && o.leverage != 0.0
    ensures o.entry <= 0.0 ==> r == Some(EntryPriceNotPositive)
    ensures o.entry > 0.0 && o.slPercent <= 0.0 ==> r == Some(StopLossNotPositive)
    ensures r == Some(ZeroEffectiveRisk) ==> sizing == FeeInclusive
  {
    if o.entry <= 0.0 then Some(EntryPriceNotPositive)
    else if o.slPercent <= 0.0 then Some(StopLossNotPositive)
    else if SizingPercent(o, sizing) == 0.0 then Some(ZeroEffectiveRisk)
    else if o.leverage == 0.0 then Some(ZeroLeverage)
    else None
  }

  predicate Valid(o: Order, sizing: Sizing) {
    Check(o, sizing).None?
  }

  /** The SL price: `sl_percent` below entry for Long, above for Short. */
  function SlPrice(o: Order): real {
    match o.direction
    case Long => o.entry * (1.0 - o.slPercent / 100.0)
    case Short => o.entry * (1.0 + o.slPercent / 100.0)
  }

  function Abs(x: real): real {
    if x < 0.0 then -x else x
  }

  /** Sizing, margin, units, SL and fee amounts. */
  function Size(o: Order, sizing: Sizing): (s: Sized)
    requires Valid(o, sizing)
    ensures s.nominal * SizingPercent(o, sizing) / 100.0 == o.maxLoss
    ensures s.margin * o.leverage == s.nominal
    ensures s.units * o.entry == s.nominal
    ensures s.slDistance == o.entry * o.slPercent / 100.0 && s.slDistance > 0.0
    ensures o.direction == Long ==> s.slPrice == o.entry - s.slDistance && s.slPrice < o.entry
    ensures o.direction == Short ==> s.slPrice == o.entry + s.slDistance && s.slPrice > o.entry
    ensures s.totalFees == s.nominal * TotalFeePercent(o) / 100.0
    ensures s.totalFees == s.entryFeeAmount + s.exitFeeAmount
    ensures s.entryFeeAmount == s.nominal * o.entryFee / 100.0
    ensures s.exitFeeAmount == s.nominal * o.exitFee / 100.0
    ensures s.totalFeePercent == o.entryFee + o.exitFee
    ensures s.effectiveRiskPercent == o.slPercent + s.totalFeePercent
  {
    SizedNominal(o.maxLoss, SizingPercent(o, sizing));
    Quotient(o.maxLoss / (SizingPercent(o, sizing) / 100.0), o.leverage);
    Quotient(o.maxLoss / (SizingPercent(o, sizing) / 100.0), o.entry);
    SlGeometry(o);
    SizeAt(o, sizing, SlPrice(o))
  }

  /** The size with the SL at `slPrice`; only the SL fields depend on it. */
  function SizeAt(o: Order, sizing: Sizing, slPrice: real): Sized
    requires SizingPercent(o, sizing) != 0.0 && o.leverage != 0.0 && o.entry != 0.0
  {
    var nominal := o.maxLoss / (SizingPercent(o, sizing) / 100.0);
    var entryFeeAmount := nominal * (o.entryFee / 100.0);
    var exitFeeAmount := nominal * (o.exitFee / 100.0);
    Sized(
      nominal,
      nominal / o.leverage,
      nominal / o.entry,
      slPrice,
      Abs(o.entry - slPrice),
      TotalFeePercent(o),
      o.slPercent + TotalFeePercent(o),
      entryFeeAmount,
      exitFeeAmount,
      entryFeeAmount + exitFeeAmount)
  }

  lemma Quotient(a: real, b: real)
    requires b != 0.0
    ensures a / b * b == a
  {
  }

  lemma SizedNominal(loss: real, pct: real)
    requires pct != 0.0
    ensures loss / (pct / 100.0) * pct / 100.0 == loss
  {
    var n := loss / (pct / 100.0);
    Quotient(loss, pct / 100.0);
    assert n * (pct / 100.0) == loss;
    assert n * pct / 100.0 == n * (pct / 100.0);
  }

  lemma SlGeometry(o: Order)
    requires o.entry > 0.0 && o.slPercent > 0.0
    ensures o.direction == Long ==> o.entry - SlPrice(o) == o.entry * o.slPercent / 100.0
    ensures o.direction == Short ==> SlPrice(o) - o.entry == o.entry * o.slPercent / 100.0
    ensures o.entry * o.slPercent / 100.0 > 0.0
  {
    MulPositive(o.entry, o.slPercent);
  }

  lemma MulPositive(a: real, b: real)
    requires a > 0.0 && b > 0.0
    ensures a * b / 100.0 > 0.0
  {
  }

  /** +1 for Long, -1 for Short. */
  function Sign(d: Direction): real {
    if d == Long then 1.0 else -1.0
  }

  /** One TP price from its field value `m`: an R multiple of the SL
      distance, or a percentage of the entry price, in the trade's direction. */
  function TargetPrice(o: Order, s: Sized, mode: TpMode, m: real): real {
    match mode
    case RMultiple =>
      if o.direction == Long then o.entry + m * s.slDistance else o.entry - m * s.slDistance
    case Percent => o.entry * (1.0 + Sign(o.direction) * m / 100.0)
  }

  datatype Pnl = Pnl(gross: real, net: real)

  /** `pnl_at(price)`: the move times the units, in the trade's favour, and that minus all fees. */
  function PnlAt(o: Order, s: Sized, price: real): Pnl {
    var gross := if o.direction == Long then (price - o.entry) * s.units else (o.entry - price) * s.units;
    Pnl(gross, gross - s.totalFees)
  }

  datatype Position = Position(sized: Sized, tps: seq<real>, slPnl: Pnl, tpPnl: seq<Pnl>)

  /** The whole of `calculate` once the three TP field values are read:
      the checks, then the position. `targets` holds the R multiples or the
      percentages, per `mode`. */
  function Calculate(o: Order, sizing: Sizing, mode: TpMode, targets: seq<real>): (r: Result<Position, CalcError>)
    requires |targets| == 3
    ensures r.Err? <==> Check(o, sizing).Some?
    ensures r.Err? ==> r.error == Check(o, sizing).value
    ensures r.Ok? ==> Valid(o, sizing) && r.value == Build(o, sizing, mode, targets)
  {
    match Check(o, sizing)
    case Some(e) => Err(e)
    case None => Ok(Build(o, sizing, mode, targets))
  }

  /** The position of a valid order: its size, three TP prices, and P&L at the SL and at each TP. */
  function Build(o: Order, sizing: Sizing, mode: TpMode, targets: seq<real>): (p: Position)
    requires Valid(o, sizing) && |targets| == 3
    ensures |p.tps| == 3 && |p.tpPnl| == 3
    ensures p.sized == Size(o, sizing)
  {
    var s := Size(o, sizing);
    Position(s, TargetPrices(o, s, mode, targets), PnlAt(o, s, s.slPrice), TargetPnls(o, s, mode, targets))
  }

  /** At the SL the position loses the SL percentage of its nominal value
      before fees: the whole budget under fee-free sizing, and the whole
      budget after fees under fee-inclusive sizing. */
  lemma BuildLosesBudget(o: Order, sizing: Sizing, mode: TpMode, targets: seq<real>)
    requires Valid(o, sizing) && |targets| == 3
    ensures var p := Build(o, sizing, mode, targets);
      && p.slPnl.gross == -(p.sized.nominal * o.slPercent / 100.0)
      && (sizing == FeeFree ==> p.slPnl.gross == -o.maxLoss)
      && (sizing == FeeInclusive ==> p.slPnl.net == -o.maxLoss)
  {
    SlOutcome(o, sizing);
  }

  /** Each TP's net P&L is its gross less all fees; the gross is the R
      multiple of what the SL loses, or the percentage of the nominal value. */
  lemma BuildTargets(o: Order, sizing: Sizing, mode: TpMode, targets: seq<real>)
    requires Valid(o, sizing) && |targets| == 3
    ensures var p := Build(o, sizing, mode, targets);
      && (forall i :: 0 <= i < 3 ==> p.tpPnl[i].net == p.tpPnl[i].gross - p.sized.totalFees)
      && (mode == RMultiple ==> forall i :: 0 <= i < 3 ==> p.tpPnl[i].gross == targets[i] * -p.slPnl.gross)
      && (mode == Percent ==> forall i :: 0 <= i < 3 ==> p.tpPnl[i].gross == p.sized.nominal * targets[i] / 100.0)
  {
    var s := Size(o, sizing);
    var p := Build(o, sizing, mode, targets);
    assert p.tpPnl == TargetPnls(o, s, mode, targets) && p.slPnl == PnlAt(o, s, s.slPrice);
    TargetGains(o, s, mode, targets);
  }

  /** The TP prices, one per field value. */
  function TargetPrices(o: Order, s: Sized, mode: TpMode, targets: seq<real>): (tps: seq<real>)
    ensures |tps| == |targets|
    ensures forall i :: 0 <= i < |targets| ==> tps[i] == TargetPrice(o, s, mode, targets[i])
  {
    seq(|targets|, i requires 0 <= i < |targets| => TargetPrice(o, s, mode, targets[i]))
  }

  /** P&L at each of the TP prices. */
  function TargetPnls(o: Order, s: Sized, mode: TpMode, targets: seq<real>): (pnl: seq<Pnl>)
    ensures |pnl| == |targets|
    ensures forall i :: 0 <= i < |targets| ==> pnl[i] == PnlAt(o, s, TargetPrice(o, s, mode, targets[i]))
    ensures forall i :: 0 <= i < |targets| ==> pnl[i].net == pnl[i].gross - s.totalFees
  {
    seq(|targets|, i requires 0 <= i < |targets| => PnlAt(o, s, TargetPrice(o, s, mode, targets[i])))
  }

  /** At the SL the position loses the SL percentage of its nominal value
      before fees; that is the whole budget under fee-free sizing, and the
      budget less the fees under fee-inclusive sizing. */
  lemma SlOutcome(o: Order, sizing: Sizing)
    requires Valid(o, sizing)
    ensures var s := Size(o, sizing);
      var sl := PnlAt(o, s, s.slPrice);
      && sl.gross == -(s.nominal * o.slPercent / 100.0)
      && (sizing == FeeFree ==> sl.gross == -o.maxLoss)
      && (sizing == FeeInclusive ==> sl.net == -o.maxLoss)
  {
    var s := Size(o, sizing);
    SlLoss(o, sizing);
    if sizing == FeeInclusive {
      BudgetWithFees(s.nominal, o.slPercent, TotalFeePercent(o), s.totalFees, o.maxLoss);
    }
  }

  lemma BudgetWithFees(n: real, sl: real, fee: real, fees: real, budget: real)
    requires n * (sl + fee) / 100.0 == budget && fees == n * fee / 100.0
    ensures -(n * sl / 100.0) - fees == -budget
  {
    assert n * (sl + fee) == n * sl + n * fee;
  }

  /** Gross P&L at the SL is the SL percentage of the nominal value, lost. */
  lemma SlLoss(o: Order, sizing: Sizing)
    requires Valid(o, sizing)
    ensures var s := Size(o, sizing);
      PnlAt(o, s, s.slPrice).gross == -(s.nominal * o.slPercent / 100.0)
  {
    var s := Size(o, sizing);
    UnitsCancel(o.entry, o.slPercent, s.units, s.nominal);
  }

  /** `(e * k / 100) * units` where `units * e == nominal`. */
  lemma UnitsCancel(e: real, k: real, units: real, nominal: real)
    requires units * e == nominal
    ensures e * k / 100.0 * units == nominal * k / 100.0
  {
    assert e * k / 100.0 * units == (units * e) * k / 100.0;
  }

  /** What each TP earns before fees, by mode: an R multiple of what the SL
      loses, or the percentage of the nominal value. */
  lemma TargetGains(o: Order, s: Sized, mode: TpMode, targets: seq<real>)
    requires o.direction == Long ==> s.slPrice == o.entry - s.slDistance
    requires o.direction == Short ==> s.slPrice == o.entry + s.slDistance
    requires s.units * o.entry == s.nominal
    ensures var pnl := TargetPnls(o, s, mode, targets);
      && (mode == RMultiple ==>
            forall i :: 0 <= i < |targets| ==> pnl[i].gross == targets[i] * -PnlAt(o, s, s.slPrice).gross)
      && (mode == Percent ==>
            forall i :: 0 <= i < |targets| ==> pnl[i].gross == s.nominal * targets[i] / 100.0)
  {
    var pnl := TargetPnls(o, s, mode, targets);
    if mode == RMultiple {
      forall i | 0 <= i < |targets| ensures pnl[i].gross == targets[i] * -PnlAt(o, s, s.slPrice).gross {
        RGainAt(o, s, targets[i]);
      }
    } else {
      forall i | 0 <= i < |targets| ensures pnl[i].gross == s.nominal * targets[i] / 100.0 {
        PercentGainAt(o, s, targets[i]);
      }
    }
  }

  /** An R-multiple TP earns `m` times what the SL loses. */
  lemma RGainAt(o: Order, s: Sized, m: real)
    requires o.direction == Long ==> s.slPrice == o.entry - s.slDistance
    requires o.direction == Short ==> s.slPrice == o.entry + s.slDistance
    ensures PnlAt(o, s, TargetPrice(o, s, RMultiple, m)).gross == m * -PnlAt(o, s, s.slPrice).gross
  {
    var d, u := s.slDistance, s.units;
    if o.direction == Long {
      assert TargetPrice(o, s, RMultiple, m) - o.entry == m * d;
      assert s.slPrice - o.entry == -d;
    } else {
      assert o.entry - TargetPrice(o, s, RMultiple, m) == m * d;
      assert o.entry - s.slPrice == -d;
    }
    assert m * d * u == m * -(-d * u);
  }

  /** A percent TP earns that percentage of the nominal value. */
  lemma PercentGainAt(o: Order, s: Sized, m: real)
    requires s.units * o.entry == s.nominal
    ensures PnlAt(o, s, TargetPrice(o, s, Percent, m)).gross == s.nominal * m / 100.0
  {
    var tp := TargetPrice(o, s, Percent, m);
    if o.direction == Long {
      assert tp - o.entry == o.entry * m / 100.0;
    } else {
      assert o.entry - tp == o.entry * m / 100.0;
    }
    UnitsCancel(o.entry, m, s.units, s.nominal);
  }

  // ---------------------------------------------------------------------
  // Relations between calculations

  /** Leverage changes the margin and nothing else. */
  lemma LeverageOnlyMovesMargin(o: Order, sizing: Sizing, mode: TpMode, targets: seq<real>, leverage: real)
    requires Valid(o, sizing) && leverage != 0.0 && |targets| == 3
    ensures Valid(o.(leverage := leverage), sizing)
    ensures var p := Build(o, sizing, mode, targets);
      var q := Build(o.(leverage := leverage), sizing, mode, targets);
      && q.sized == p.sized.(margin := p.sized.nominal / leverage)
      && q.tps == p.tps && q.slPnl == p.slPnl && q.tpPnl == p.tpPnl
  {
    var o2 := o.(leverage := leverage);
    SizeIgnoresLeverage(o, sizing, leverage);
    SameSizeSamePosition(o, o2, sizing, mode, targets);
  }

  lemma SizeIgnoresLeverage(o: Order, sizing: Sizing, leverage: real)
    requires Valid(o, sizing) && leverage != 0.0
    ensures Valid(o.(leverage := leverage), sizing)
    ensures Size(o.(leverage := leverage), sizing) == Size(o, sizing).(margin := Size(o, sizing).nominal / leverage)
  {
  }

  /** Orders with the same direction and entry, and sizes that agree outside
      the margin, have the same prices and P&L. */
  lemma SameSizeSamePosition(o: Order, o2: Order, sizing: Sizing, mode: TpMode, targets: seq<real>)
    requires Valid(o, sizing) && Valid(o2, sizing) && |targets| == 3
    requires o2.direction == o.direction && o2.entry == o.entry
    requires Size(o2, sizing).(margin := 0.0) == Size(o, sizing).(margin := 0.0)
    ensures var p := Build(o, sizing, mode, targets);
      var q := Build(o2, sizing, mode, targets);
      q.tps == p.tps && q.slPnl == p.slPnl && q.tpPnl == p.tpPnl
  {
    var s := Size(o, sizing);
    var s2 := Size(o2, sizing);
    assert s2.slDistance == s.slDistance && s2.units == s.units;
    assert s2.totalFees == s.totalFees && s2.slPrice == s.slPrice;
    SameLegs(o, o2, s, s2, mode, targets);
  }

  /** The TP prices and all P&L depend on the size only through the SL
      price and distance, the units and the fees. */
  lemma SameLegs(o: Order, o2: Order, s: Sized, s2: Sized, mode: TpMode, targets: seq<real>)
    requires o2.direction == o.direction && o2.entry == o.entry
    requires s2.slDistance == s.slDistance && s2.units == s.units
    requires s2.totalFees == s.totalFees && s2.slPrice == s.slPrice
    ensures TargetPrices(o2, s2, mode, targets) == TargetPrices(o, s, mode, targets)
    ensures TargetPnls(o2, s2, mode, targets) == TargetPnls(o, s, mode, targets)
    ensures PnlAt(o2, s2, s2.slPrice) == PnlAt(o, s, s.slPrice)
  {
    var p, q := TargetPrices(o, s, mode, targets), TargetPrices(o2, s2, mode, targets);
    forall i | 0 <= i < |targets| ensures q[i] == p[i] {
      SameTarget(o, o2, s, s2, mode, targets[i]);
    }
    var a, b := TargetPnls(o, s, mode, targets), TargetPnls(o2, s2, mode, targets);
    forall i | 0 <= i < |targets| ensures b[i] == a[i] {
      SameTarget(o, o2, s, s2, mode, targets[i]);
    }
  }

  lemma SameTarget(o: Order, o2: Order, s: Sized, s2: Sized, mode: TpMode, m: real)
    requires o2.direction == o.direction && o2.entry == o.entry && s2.slDistance == s.slDistance
    ensures TargetPrice(o2, s2, mode, m) == TargetPrice(o, s, mode, m)
  {
  }

  /** Long and Short mirror their prices around the entry and have the same P&L. */
  lemma DirectionMirror(o: Order, sizing: Sizing, mode: TpMode, targets: seq<real>)
    requires Valid(o, sizing) && |targets| == 3
    ensures Valid(o.(direction := Long), sizing) && Valid(o.(direction := Short), sizing)
    ensures var l := Build(o.(direction := Long), sizing, mode, targets);
      var s := Build(o.(direction := Short), sizing, mode, targets);
      && l.sized.nominal == s.sized.nominal && l.sized.units == s.sized.units
      && l.sized.slPrice + s.sized.slPrice == 2.0 * o.entry
      && (forall i :: 0 <= i < 3 ==> l.tps[i] + s.tps[i] == 2.0 * o.entry)
      && l.slPnl == s.slPnl
      && l.tpPnl == s.tpPnl
  {
    var oL := o.(direction := Long);
    var oS := o.(direction := Short);
    var sL := Size(oL, sizing);
    var sS := Size(oS, sizing);
    SizeMirror(o, sizing);
    var l := Build(oL, sizing, mode, targets);
    var s := Build(oS, sizing, mode, targets);
    PnlMirror(oL, oS, sL, sS, sL.slPrice, sS.slPrice);
    forall i | 0 <= i < 3 ensures l.tps[i] + s.tps[i] == 2.0 * o.entry && l.tpPnl[i] == s.tpPnl[i] {
      TargetMirror(oL, oS, sL, sS, mode, targets[i]);
      PnlMirror(oL, oS, sL, sS, l.tps[i], s.tps[i]);
    }
  }

  /** Direction moves the SL to the other side of the entry and changes nothing else in the size. */
  lemma SizeMirror(o: Order, sizing: Sizing)
    requires Valid(o, sizing)
    ensures Valid(o.(direction := Long), sizing) && Valid(o.(direction := Short), sizing)
    ensures var l := Size(o.(direction := Long), sizing);
      var s := Size(o.(direction := Short), sizing);
      && l.(slPrice := 0.0) == s.(slPrice := 0.0)
      && l.slPrice + s.slPrice == 2.0 * o.entry
  {
    SizeFieldsMirror(o, sizing);
  }

  lemma SizeFieldsMirror(o: Order, sizing: Sizing)
    requires Valid(o, sizing)
    ensures Valid(o.(direction := Long), sizing) && Valid(o.(direction := Short), sizing)
    ensures var l := Size(o.(direction := Long), sizing);
      var s := Size(o.(direction := Short), sizing);
      && l.(slPrice := 0.0, slDistance := 0.0) == s.(slPrice := 0.0, slDistance := 0.0)
      && l.slDistance == s.slDistance
      && l.slPrice + s.slPrice == 2.0 * o.entry
  {
    var oL, oS := o.(direction := Long), o.(direction := Short);
    SizeAtDirection(o, sizing, Long, SlPrice(oL));
    SizeAtDirection(o, sizing, Short, SlPrice(oS));
    SizeAtStop(o, sizing, SlPrice(oL), SlPrice(oS));
    SlGeometry(oL);
    SlGeometry(oS);
  }

  lemma SizeAtDirection(o: Order, sizing: Sizing, d: Direction, p: real)
    requires SizingPercent(o, sizing) != 0.0 && o.leverage != 0.0 && o.entry != 0.0
    ensures SizeAt(o.(direction := d), sizing, p) == SizeAt(o, sizing, p)
  {
  }

  lemma SizeAtStop(o: Order, sizing: Sizing, p: real, q: real)
    requires SizingPercent(o, sizing) != 0.0 && o.leverage != 0.0 && o.entry != 0.0
    ensures SizeAt(o, sizing, p).(slPrice := 0.0, slDistance := 0.0)
         == SizeAt(o, sizing, q).(slPrice := 0.0, slDistance := 0.0)
  {
  }

  lemma TargetMirror(oL: Order, oS: Order, sL: Sized, sS: Sized, mode: TpMode, m: real)
    requires oL.direction == Long && oS.direction == Short && oL.entry == oS.entry
    requires sL.slDistance == sS.slDistance
    ensures TargetPrice(oL, sL, mode, m) + TargetPrice(oS, sS, mode, m) == 2.0 * oL.entry
  {
  }

  /** Prices mirrored around the entry give the same P&L to a Long and a Short. */
  lemma PnlMirror(oL: Order, oS: Order, sL: Sized, sS: Sized, priceL: real, priceS: real)
    requires oL.direction == Long && oS.direction == Short && oL.entry == oS.entry
    requires sL.units == sS.units && sL.totalFees == sS.totalFees
    requires priceL + priceS == 2.0 * oL.entry
    ensures PnlAt(oL, sL, priceL) == PnlAt(oS, sS, priceS)
  {
    assert priceL - oL.entry == oS.entry - priceS;
  }

  /** A positive target lies on the profitable side of the entry: above it
      for Long, below it for Short, in either TP mode. */
  lemma TargetsOnProfitSide(o: Order, sizing: Sizing, mode: TpMode, targets: seq<real>, i: int)
    requires Valid(o, sizing) && |targets| == 3 && 0 <= i < 3 && targets[i] > 0.0
    ensures var p := Build(o, sizing, mode, targets);
      && (o.direction == Long ==> p.tps[i] > o.entry)
      && (o.direction == Short ==> p.tps[i] < o.entry)
  {
    var s := Size(o, sizing);
    MulPositive(o.entry, targets[i]);
    MulPositive(targets[i], s.slDistance * 100.0);
  }

  /** Counting fees in the risk makes the position smaller: with non-negative
      fees and loss budget, the Positionsrechner nominal never exceeds the
      Nominalwert one. */
  lemma FeesShrinkPosition(o: Order)
    requires Valid(o, FeeFree) && Valid(o, FeeInclusive)
    requires TotalFeePercent(o) >= 0.0 && o.maxLoss >= 0.0
    ensures Size(o, FeeInclusive).nominal <= Size(o, FeeFree).nominal
  {
    var a := o.slPercent / 100.0;
    var b := (o.slPercent + TotalFeePercent(o)) / 100.0;
    DivideByLarger(o.maxLoss, a, b);
  }

  lemma DivideByLarger(x: real, a: real, b: real)
    requires x >= 0.0 && 0.0 < a <= b
    ensures x / b <= x / a
  {
  }

  /** Without fees in the sizing, the net loss at the SL exceeds the budget by the fees. */
  lemma FeeFreeNetLoss(o: Order, mode: TpMode, targets: seq<real>)
    requires Valid(o, FeeFree) && |targets| == 3
    ensures var p := Build(o, FeeFree, mode, targets);
      p.slPnl.net == -o.maxLoss - p.sized.nominal * TotalFeePercent(o) / 100.0
  {
    BuildLosesBudget(o, FeeFree, mode, targets);
  }

  /** The loss budget is never checked: it does not take part in validation,
      and a negative budget yields a negative position. */
  lemma MaxLossUnchecked(o: Order, sizing: Sizing, loss: real)
    ensures Check(o.(maxLoss := loss), sizing) == Check(o, sizing)
    ensures Valid(o, sizing) && sizing == FeeFree && loss < 0.0 ==>
      Size(o.(maxLoss := loss), sizing).nominal < 0.0
  {
    if Valid(o, sizing) && sizing == FeeFree && loss < 0.0 {
      var n := Size(o.(maxLoss := loss), sizing).nominal;
      assert n * o.slPercent / 100.0 == loss;
    }
  }

  /** Entry 50000, budget 10, SL 0.5 %, leverage 10, taker fees 0.02 % and
      0.04 %, Long, TPs at 1R, 2R and 3R. */
  lemma LongScenario()
    ensures var o := Order(Long, 50000.0, 10.0, 0.5, 10.0, 0.02, 0.04);
      var r := Calculate(o, FeeInclusive, RMultiple, [1.0, 2.0, 3.0]);
      && r.Ok?
      && r.value.sized.nominal == 12500.0 / 7.0
      && r.value.sized.margin == 1250.0 / 7.0
      && r.value.sized.slPrice == 49750.0
      && r.value.sized.slDistance == 250.0
      && r.value.tps == [50250.0, 50500.0, 50750.0]
      && r.value.sized.totalFees == 7.5 / 7.0
      && r.value.slPnl.net == -10.0
  {
    var o := Order(Long, 50000.0, 10.0, 0.5, 10.0, 0.02, 0.04);
    assert Valid(o, FeeInclusive);
    var s := Size(o, FeeInclusive);
    assert s.nominal * 0.56 / 100.0 == 10.0;
    assert s.nominal == 12500.0 / 7.0;
    BuildLosesBudget(o, FeeInclusive, RMultiple, [1.0, 2.0, 3.0]);
  }

  /** A zero entry price is refused before anything is computed. */
  lemma ZeroEntryScenario(o: Order, sizing: Sizing, mode: TpMode, targets: seq<real>)
    requires o.entry == 0.0 && |targets| == 3
    ensures Calculate(o, sizing, mode, targets) == Err(EntryPriceNotPositive)
  {
  }
}

=== FILE: decimal.dfy ===
/**
 * The conversion `float(s)` that ends both `parse_num` functions, restricted
 * to plain decimal literals: an optional sign followed by `digits`,
 * `digits.`, `digits.digits` or `.digits`. The value is the exact rational
 * the literal denotes; rounding to a double is not modelled.
 */
module Decimal {
  import opened Base
  import opened Text

  predicate IsDigit(c: char) {
    '0' <= c <= '9'
  }

  predicate AllDigits(s: string) {
    forall i :: 0 <= i < |s| ==> IsDigit(s[i])
  }

  function Pow10(n: nat): (p: nat)
    ensures p >= 1
  {
    if n == 0 then 1 else 10 * Pow10(n - 1)
  }

  function DigitValue(c: char): nat
    requires IsDigit(c)
  {
    c as int - '0' as int
  }

  /** The natural number a digit string denotes; it always has fewer than `|s|` digits' worth. */
  function DigitsValue(s: string): (v: nat)
    requires AllDigits(s)
    ensures v < Pow10(|s|)
  {
    if s == [] then 0
    else
      var p := s[..|s| - 1];
      assert AllDigits(p) by {
        forall i | 0 <= i < |p| ensures IsDigit(p[i]) {
          assert p[i] == s[i];
        }
      }
      var w := DigitsValue(p);
      assert w * 10 + 9 < Pow10(|s|) by {
        assert w + 1 <= Pow10(|p|);
        assert (w + 1) * 10 <= Pow10(|p|) * 10;
      }
      w * 10 + DigitValue(s[|s| - 1])
  }

  /** Appending digits shifts the value of the prefix by a power of ten. */
  lemma {:induction false} DigitsValueAppend(a: string, b: string)
    requires AllDigits(a) && AllDigits(b)
    ensures AllDigits(a + b)
    ensures DigitsValue(a + b) == DigitsValue(a) * Pow10(|b|) + DigitsValue(b)
    decreases |b|
  {
    assert AllDigits(a + b) by {
      forall i | 0 <= i < |a + b| ensures IsDigit((a + b)[i]) {
        if i < |a| { assert (a + b)[i] == a[i]; } else { assert (a + b)[i] == b[i - |a|]; }
      }
    }
    if b == [] {
      assert a + b == a;
    } else {
      var q := b[..|b| - 1];
      var x := b[|b| - 1];
      assert AllDigits(q) by {
        forall i | 0 <= i < |q| ensures IsDigit(q[i]) {
          assert q[i] == b[i];
        }
      }
      assert (a + b)[..|a + b| - 1] == a + q;
      DigitsValueAppend(a, q);
      assert DigitsValue(a + b) == DigitsValue(a + q) * 10 + DigitValue(x);
      assert DigitsValue(b) == DigitsValue(q) * 10 + DigitValue(x);
      ShiftByDigit(DigitsValue(a), Pow10(|q|), DigitsValue(q), DigitValue(x));
    }
  }

  lemma ShiftByDigit(va: nat, p: nat, vq: nat, d: nat)
    ensures (va * p + vq) * 10 + d == va * (10 * p) + (vq * 10 + d)
  {
  }

  /** The value of an unsigned literal `digits`, `digits.`, `digits.digits` or `.digits`. */
  function UnsignedValue(u: string): Option<real> {
    var parts := Split(u, '.');
    if |parts| == 1 then
      if u != [] && AllDigits(u) then Some(DigitsValue(u) as real) else None
    else if |parts| == 2 && AllDigits(parts[0]) && AllDigits(parts[1]) && |parts[0]| + |parts[1]| > 0 then
      Some(DigitsValue(parts[0]) as real + DigitsValue(parts[1]) as real / Pow10(|parts[1]|) as real)
    else None
  }

  /** The value of a literal with an optional leading `+` or `-`. */
  function LiteralValue(t: string): Option<real> {
    if t != [] && (t[0] == '+' || t[0] == '-') then
      match UnsignedValue(t[1..])
      case None => None
      case Some(v) => Some(if t[0] == '-' then -v else v)
    else UnsignedValue(t)
  }

  /** Why a number field could not be read. */
  datatype ParseError =
    | EmptyNumber               // the US-only parser's own "Empty number." error
    | NotANumber(text: string)  // float() refused its argument

  /** Python's `float(s)`: surrounding whitespace is ignored, the rest must be a literal. */
  function ToFloat(s: string): (r: Result<real, ParseError>)
    ensures r.Err? ==> r.error == NotANumber(s)
    ensures r.Ok? ==> !AllSpace(s)
    ensures r.Ok? <==> LiteralValue(Strip(s)).Some?
  {
    match LiteralValue(Strip(s))
    case Some(v) => Ok(v)
    case None => Err(NotANumber(s))
  }

  /** A character that cannot appear in a literal makes `float()` fail. */
  lemma ForeignCharRejected(t: string, x: char)
    requires x in t
    requires !IsDigit(x) && x != '.' && x != '+' && x != '-'
    ensures LiteralValue(t) == None
  {
    if t != [] && (t[0] == '+' || t[0] == '-') {
      assert t == [t[0]] + t[1..];
      assert x in t[1..];
      ForeignCharUnsigned(t[1..], x);
    } else {
      ForeignCharUnsigned(t, x);
    }
  }

  lemma {:induction false} ForeignCharUnsigned(u: string, x: char)
    requires x in u
    requires !IsDigit(x) && x != '.'
    ensures UnsignedValue(u) == None
  {
    var parts := Split(u, '.');
    if |parts| == 2 {
      JoinSplit(u, '.');
      EraseKeeps(u, '.', x);
      assert parts == [parts[0], parts[1]];
      JoinTwo(parts[0], parts[1]);
      assert x in parts[0] + parts[1];
      assert x in parts[0] || x in parts[1];
      assert !AllDigits(parts[0]) || !AllDigits(parts[1]);
    } else if |parts| == 1 {
      assert !AllDigits(u);
    }
  }

  /** `"" or "."` in front of a fraction: nothing when there are no fraction digits. */
  function PointFraction(point: char, frac: string): string {
    if frac == [] then [] else [point] + frac
  }

  function SignText(negative: bool): string {
    if negative then "-" else ""
  }

  /** The exact number denoted by a sign, integer digits and fraction digits. */
  function DecimalNumber(negative: bool, whole: string, frac: string): real
    requires AllDigits(whole) && AllDigits(frac)
  {
    var m := DigitsValue(whole) as real + DigitsValue(frac) as real / Pow10(|frac|) as real;
    if negative then -m else m
  }

  /** A rendered decimal `[-]whole[.frac]` reads back as the number it denotes. */
  lemma LiteralOfDecimal(negative: bool, whole: string, frac: string)
    requires AllDigits(whole) && AllDigits(frac) && whole != []
    ensures LiteralValue(SignText(negative) + whole + PointFraction('.', frac))
         == Some(DecimalNumber(negative, whole, frac))
  {
    var u := whole + PointFraction('.', frac);
    var v := DecimalNumber(false, whole, frac);
    UnsignedOfDecimal(whole, frac);
    assert u[0] == whole[0];
    SignedLiteral(negative, u, v);
    assert SignText(negative) + whole + PointFraction('.', frac) == SignText(negative) + u;
    DecimalSign(negative, whole, frac);
  }

  lemma DecimalSign(negative: bool, whole: string, frac: string)
    requires AllDigits(whole) && AllDigits(frac)
    ensures DecimalNumber(negative, whole, frac)
         == if negative then -DecimalNumber(false, whole, frac) else DecimalNumber(false, whole, frac)
  {
  }

  /** An optional `-` in front of an unsigned literal that starts with a digit negates it. */
  lemma SignedLiteral(negative: bool, u: string, v: real)
    requires UnsignedValue(u) == Some(v)
    requires u != [] && IsDigit(u[0])
    ensures LiteralValue(SignText(negative) + u) == Some(if negative then -v else v)
  {
    if negative {
      NegativeLiteral(u, v);
    } else {
      assert SignText(negative) + u == u;
      PlainLiteral(u, v);
    }
  }

  lemma NegativeLiteral(u: string, v: real)
    requires UnsignedValue(u) == Some(v)
    ensures LiteralValue("-" + u) == Some(-v)
  {
    assert ("-" + u)[1..] == u;
  }

  lemma PlainLiteral(u: string, v: real)
    requires UnsignedValue(u) == Some(v)
    requires u != [] && IsDigit(u[0])
    ensures LiteralValue(u) == Some(v)
  {
  }

  lemma UnsignedOfDecimal(whole: string, frac: string)
    requires AllDigits(whole) && AllDigits(frac) && whole != []
    ensures UnsignedValue(whole + PointFraction('.', frac)) == Some(DecimalNumber(false, whole, frac))
  {
    if frac == [] {
      assert whole + PointFraction('.', frac) == whole;
      UnsignedWhole(whole);
    } else {
      assert whole + PointFraction('.', frac) == whole + ['.'] + frac;
      UnsignedWithFraction(whole, frac);
    }
  }

  lemma UnsignedWhole(whole: string)
    requires AllDigits(whole) && whole != []
    ensures UnsignedValue(whole) == Some(DigitsValue(whole) as real)
  {
    assert '.' !in whole;
    SplitAbsent(whole, '.');
  }

  lemma UnsignedWithFraction(whole: string, frac: string)
    requires AllDigits(whole) && AllDigits(frac) && frac != []
    ensures UnsignedValue(whole + ['.'] + frac)
         == Some(DigitsValue(whole) as real + DigitsValue(frac) as real / Pow10(|frac|) as real)
  {
    SplitAtPoint(whole, frac);
    FractionValue(whole, frac);
  }

  lemma FractionValue(whole: string, frac: string)
    requires AllDigits(whole) && AllDigits(frac) && frac != []
    requires Split(whole + ['.'] + frac, '.') == [whole, frac]
    ensures UnsignedValue(whole + ['.'] + frac)
         == Some(DigitsValue(whole) as real + DigitsValue(frac) as real / Pow10(|frac|) as real)
  {
  }

  /** A single point splits a literal into its whole and its fraction digits. */
  lemma SplitAtPoint(whole: string, frac: string)
    requires AllDigits(whole) && AllDigits(frac)
    ensures Split(whole + ['.'] + frac, '.') == [whole, frac]
  {
    var u := whole + ['.'] + frac;
    assert '.' !in whole;
    assert '.' !in frac;
    SplitAbsent(whole, '.');
    LastIndexAt(whole, frac, '.');
    var k := LastIndex(u, '.');
    SplitAtLast(u, '.');
    assert u[..k] == whole;
    assert u[k + 1..] == frac;
  }
}

=== FILE: fees.dfy ===
/**
 * `fee_for(side)`: the fee percentage of the Maker or Taker side, read from
 * the saved settings with a built-in default. The Nominalwert calculator
 * recognises only the exact text "Maker"; the two Positionsrechner variants
 * compare case-insensitively and have different defaults.
 */
module Fees {
  import opened Text

  /** Saved settings: fee percentages by key. Persistence is not modelled. */
  type Settings = map<string, real>

  datatype Side = Maker | Taker

  /** The percentages used when a key is missing from the settings. */
  datatype Defaults = Defaults(maker: real, taker: real)

  const NominalwertDefaults := Defaults(0.014, 0.042)
  const PositionsrechnerDefaults := Defaults(0.03, 0.07)

  const MakerKey := "maker_fee"
  const TakerKey := "taker_fee"

  function KeyOf(side: Side): string {
    match side
    case Maker => MakerKey
    case Taker => TakerKey
  }

  function DefaultOf(d: Defaults, side: Side): real {
    match side
    case Maker => d.maker
    case Taker => d.taker
  }

  /** `settings.get(key, default)`. */
  function Setting(settings: Settings, key: string, default: real): real {
    if key in settings then settings[key] else default
  }

  /** The fee of `side`: its own key when saved, its own default otherwise. */
  function FeeFor(settings: Settings, d: Defaults, side: Side): (f: real)
    ensures KeyOf(side) in settings ==> f == settings[KeyOf(side)]
    ensures KeyOf(side) !in settings ==> f == DefaultOf(d, side)
  {
    Setting(settings, KeyOf(side), DefaultOf(d, side))
  }

  /** Nominalwert: only the exact text "Maker" is the maker side. */
  function SideExact(choice: string): (s: Side)
    ensures s == Maker <==> choice == "Maker"
  {
    if choice == "Maker" then Maker else Taker
  }

  /** Positionsrechner: any spelling that lower-cases to "maker" is the maker side. */
  function SideFolded(choice: string): (s: Side)
    ensures s == Maker <==> Lower(choice) == "maker"
  {
    if Lower(choice) == "maker" then Maker else Taker
  }

  /** `fee_for` of the Nominalwert calculator. */
  function NominalwertFee(settings: Settings, choice: string): (f: real)
    ensures choice == "Maker" ==> f == Setting(settings, MakerKey, 0.014)
    ensures choice != "Maker" ==> f == Setting(settings, TakerKey, 0.042)
  {
    FeeFor(settings, NominalwertDefaults, SideExact(choice))
  }

  /** `fee_for` of the two Positionsrechner variants. */
  function PositionsrechnerFee(settings: Settings, choice: string): (f: real)
    ensures Lower(choice) == "maker" ==> f == Setting(settings, MakerKey, 0.03)
    ensures Lower(choice) != "maker" ==> f == Setting(settings, TakerKey, 0.07)
  {
    FeeFor(settings, PositionsrechnerDefaults, SideFolded(choice))
  }

  /** A side's fee depends on its own key only: changing any other setting leaves it alone. */
  lemma FeeIgnoresOtherKeys(settings: Settings, d: Defaults, side: Side, key: string, v: real)
    requires key != KeyOf(side)
    ensures FeeFor(settings[key := v], d, side) == FeeFor(settings, d, side)
  {
  }

  /** Saving both fees (`on_save_settings`) and reading them back returns what was saved. */
  lemma SavedFeesReadBack(settings: Settings, d: Defaults, maker: real, taker: real)
    ensures var saved := settings[MakerKey := maker][TakerKey := taker];
      FeeFor(saved, d, Maker) == maker && FeeFor(saved, d, Taker) == taker
  {
  }

  lemma LowerIdempotent(s: string)
    ensures Lower(Lower(s)) == Lower(s)
  {
    assert forall i :: 0 <= i < |s| ==> LowerChar(LowerChar(s[i])) == LowerChar(s[i]);
  }

  /** The Positionsrechner side choice ignores letter case. */
  lemma FoldedIgnoresCase(choice: string)
    ensures SideFolded(Lower(choice)) == SideFolded(choice)
  {
    LowerIdempotent(choice);
  }

  /** Whatever the side text, the Nominalwert maker side is also the
      Positionsrechner maker side; the converse fails (see `SideVariants`). */
  lemma ExactMakerIsFolded(choice: string)
    ensures SideExact(choice) == Maker ==> SideFolded(choice) == Maker
  {
    if choice == "Maker" {
      assert Lower(choice) == "maker";
    }
  }

  /** Worked example on four spellings: on the combobox values both variants
      agree; on `maker` and `MAKER` they part ways. */
  lemma SideVariants()
    ensures SideExact("Maker") == Maker && SideFolded("Maker") == Maker
    ensures SideExact("Taker") == Taker && SideFolded("Taker") == Taker
    ensures SideExact("maker") == Taker && SideFolded("maker") == Maker
    ensures SideExact("MAKER") == Taker && SideFolded("MAKER") == Maker
  {
    assert Lower("Maker") == "maker";
    assert Lower("maker") == "maker";
    assert Lower("MAKER") == "maker";
    assert Lower("Taker")[0] == 't';
  }
}

=== FILE: form.dfy ===
/**
 * `calculate` of each app end to end: read the form's text fields, check
 * the order, then read the take-profit fields of the selected mode, then
 * compute. The order matters: the first failure is the one reported, so a
 * bad entry price is reported even when a TP field is unreadable, and the
 * TP fields are read only after the checks pass.
 */
module Form {
  import opened Base
  import opened Text
  import opened Decimal
  import opened NumberFormat
  import opened Fees
  import opened Leverage
  import opened Calculator

  datatype Variant =
    | Nominalwert       // nominalwert_rechner.py
    | Positionsrechner  // test.py
    | Pro               // positionsrechner_pro_settings.py

  /** The three TP fields of one mode. */
  datatype TpFields = TpFields(tp1: string, tp2: string, tp3: string)

  /** The text of every widget `calculate` reads. `formatChoice` is the
      Nominalwert number-format combobox; the other apps ignore it. */
  datatype Form = Form(
    direction: string,
    formatChoice: string,
    entry: string,
    maxLoss: string,
    slPercent: string,
    entrySide: string,
    exitSide: string,
    tpMode: string,
    rMultiples: TpFields,
    percents: TpFields)

  datatype Field = EntryField | MaxLossField | StopLossField | TargetField(index: nat)

  /** Why `calculate` showed an error instead of results. */
  datatype Failure =
    | Unreadable(field: Field, error: ParseError)  // a field failed `parse_num`
    | Invalid(reason: CalcError)                   // a check or a division failed
    | NoSuchStep(index: int)                        // Pro: the stored step index is out of range

  /** `needle` occurs in `s` as a contiguous piece. */
  predicate Contains(s: string, needle: string)
    decreases |s|
  {
    |needle| <= |s| && (s[..|needle|] == needle || (s != [] && Contains(s[1..], needle)))
  }

  /** Nominalwert: German exactly when the combobox text mentions "Deutsch". */
  function LocaleOfChoice(choice: string): (l: Locale)
    ensures l == German <==> Contains(choice, "Deutsch")
  {
    if Contains(choice, "Deutsch") then German else Us
  }

  function SizingOf(v: Variant): (s: Sizing)
    ensures s == FeeFree <==> v == Nominalwert
  {
    if v == Nominalwert then FeeFree else FeeInclusive
  }

  /** The variant's `parse_num`. */
  function Parse(v: Variant, locale: Locale, s: string): (r: Result<real, ParseError>)
    ensures v == Nominalwert ==> r == ParseNum(s, locale)
    ensures v != Nominalwert ==> r == ParseNumUs(s)
  {
    if v == Nominalwert then ParseNum(s, locale) else ParseNumUs(s)
  }

  /** The variant's `fee_for`. */
  function Fee(v: Variant, settings: Settings, side: string): (f: real)
    ensures v == Nominalwert ==> f == NominalwertFee(settings, side)
    ensures v != Nominalwert ==> f == PositionsrechnerFee(settings, side)
  {
    if v == Nominalwert then NominalwertFee(settings, side) else PositionsrechnerFee(settings, side)
  }

  /** The variant's `_current_leverage`, from the slider's stored value
      (the leverage itself, or for Pro the step index). */
  function CurrentOf(v: Variant, stored: int): (r: Result<real, Failure>)
    ensures v != Pro ==> r == Ok(stored as real)
    ensures v == Pro ==> (r.Ok? <==> -|Steps| <= stored < |Steps|)
    ensures v == Pro && r.Ok? ==> r.value == StepAt(stored).value as real
    ensures v == Pro && r.Ok? ==> r.value in {1.0, 25.0, 50.0, 75.0, 100.0, 125.0}
    ensures r.Err? ==> r.error == NoSuchStep(stored)
  {
    if v != Pro then Ok(stored as real)
    else match CurrentLeverage(stored)
      case Some(x) => Ok(x)
      case None => Err(NoSuchStep(stored))
  }

  /** The three TP fields, first to third; the first unreadable one is reported. */
  function ParseTargets(v: Variant, locale: Locale, f: TpFields): (r: Result<seq<real>, Failure>)
    ensures r.Ok? <==> Parse(v, locale, f.tp1).Ok? && Parse(v, locale, f.tp2).Ok? && Parse(v, locale, f.tp3).Ok?
    ensures r.Ok? ==> r.value == [Parse(v, locale, f.tp1).value, Parse(v, locale, f.tp2).value, Parse(v, locale, f.tp3).value]
    ensures r.Err? ==> r.error.Unreadable? && r.error.field.TargetField? && 1 <= r.error.field.index <= 3
    ensures Parse(v, locale, f.tp1).Err? ==>
      r == Err(Unreadable(TargetField(1), Parse(v, locale, f.tp1).error))
    ensures Parse(v, locale, f.tp1).Ok? && Parse(v, locale, f.tp2).Err? ==>
      r == Err(Unreadable(TargetField(2), Parse(v, locale, f.tp2).error))
    ensures Parse(v, locale, f.tp1).Ok? && Parse(v, locale, f.tp2).Ok? && Parse(v, locale, f.tp3).Err? ==>
      r == Err(Unreadable(TargetField(3), Parse(v, locale, f.tp3).error))
  {
    match Parse(v, locale, f.tp1)
    case Err(e) => Err(Unreadable(TargetField(1), e))
    case Ok(a) =>
      match Parse(v, locale, f.tp2)
      case Err(e) => Err(Unreadable(TargetField(2), e))
      case Ok(b) =>
        match Parse(v, locale, f.tp3)
        case Err(e) => Err(Unreadable(TargetField(3), e))
        case Ok(c) => Ok([a, b, c])
  }

  /** Only Nominalwert offers a number-format choice; the others read US text. */
  function FormLocale(v: Variant, form: Form): (l: Locale)
    ensures v == Nominalwert ==> l == LocaleOfChoice(form.formatChoice)
    ensures v != Nominalwert ==> l == Us
  {
    if v == Nominalwert then LocaleOfChoice(form.formatChoice) else Us
  }

  function ActiveTargets(form: Form): TpFields {
    if TpModeOf(form.tpMode) == RMultiple then form.rMultiples else form.percents
  }

  /** The texts `calculate` reads besides the number format and the TP fields. */
  datatype Leading = Leading(
    direction: string,
    entry: string,
    maxLoss: string,
    slPercent: string,
    entrySide: string,
    exitSide: string,
    tpMode: string)

  function LeadingOf(form: Form): Leading {
    Leading(form.direction, form.entry, form.maxLoss, form.slPercent, form.entrySide, form.exitSide, form.tpMode)
  }

  /** The order `calculate` builds once the three leading fields and the leverage are read. */
  function OrderOf(v: Variant, lead: Leading, settings: Settings, entry: real, maxLoss: real, sl: real, leverage: real): (o: Order)
    ensures o.direction == Long <==> Lower(lead.direction) == "long"
    ensures o.entry == entry && o.maxLoss == maxLoss && o.slPercent == sl && o.leverage == leverage
    ensures o.entryFee == Fee(v, settings, lead.entrySide) && o.exitFee == Fee(v, settings, lead.exitSide)
  {
    Order(DirectionOf(lead.direction), entry, maxLoss, sl, leverage,
          Fee(v, settings, lead.entrySide), Fee(v, settings, lead.exitSide))
  }

  /** `calculate` of app `v`: the fields are read, checked and reported in
      the order the code reads them, and only the selected mode's TP fields
      are read at all. */
  function Evaluate(v: Variant, form: Form, settings: Settings, stored: int): (r: Result<Position, Failure>)
    ensures r.Ok? ==>
      && Parse(v, FormLocale(v, form), form.entry).Ok?
      && Parse(v, FormLocale(v, form), form.maxLoss).Ok?
      && Parse(v, FormLocale(v, form), form.slPercent).Ok?
      && CurrentOf(v, stored).Ok?
      && ParseTargets(v, FormLocale(v, form), ActiveTargets(form)).Ok?
    ensures var locale := FormLocale(v, form);
      Parse(v, locale, form.entry).Err? ==>
        r == Err(Unreadable(EntryField, Parse(v, locale, form.entry).error))
    ensures var locale := FormLocale(v, form);
      Parse(v, locale, form.entry).Ok? && Parse(v, locale, form.maxLoss).Err? ==>
        r == Err(Unreadable(MaxLossField, Parse(v, locale, form.maxLoss).error))
    ensures var locale := FormLocale(v, form);
      Parse(v, locale, form.entry).Ok? && Parse(v, locale, form.maxLoss).Ok? && Parse(v, locale, form.slPercent).Err? ==>
        r == Err(Unreadable(StopLossField, Parse(v, locale, form.slPercent).error))
    ensures var locale := FormLocale(v, form);
      Parse(v, locale, form.entry).Ok? && Parse(v, locale, form.maxLoss).Ok? && Parse(v, locale, form.slPercent).Ok?
      && CurrentOf(v, stored).Err? ==>
        r == Err(NoSuchStep(stored))
    ensures var locale := FormLocale(v, form);
      Parse(v, locale, form.entry).Ok? && Parse(v, locale, form.maxLoss).Ok? && Parse(v, locale, form.slPercent).Ok?
      && CurrentOf(v, stored).Ok? ==>
        var o := OrderOf(v, LeadingOf(form), settings, Parse(v, locale, form.entry).value, Parse(v, locale, form.maxLoss).value,
                         Parse(v, locale, form.slPercent).value, CurrentOf(v, stored).value);
        && (Check(o, SizingOf(v)).Some? ==> r == Err(Invalid(Check(o, SizingOf(v)).value)))
        && (Check(o, SizingOf(v)).None? && ParseTargets(v, locale, ActiveTargets(form)).Err? ==>
              r == Err(ParseTargets(v, locale, ActiveTargets(form)).error))
  {
    ReadFields(v, FormLocale(v, form), LeadingOf(form), ActiveTargets(form), settings, stored)
  }

  /** The body of `calculate`, given only the texts it reads: the leading
      fields, then the leverage, then the checks, then the TP fields of the
      selected mode. */
  function ReadFields(v: Variant, locale: Locale, lead: Leading, tp: TpFields, settings: Settings, stored: int)
    : Result<Position, Failure>
  {
    match Parse(v, locale, lead.entry)
    case Err(e) => Err(Unreadable(EntryField, e))
    case Ok(entry) =>
      match Parse(v, locale, lead.maxLoss)
      case Err(e) => Err(Unreadable(MaxLossField, e))
      case Ok(maxLoss) =>
        match Parse(v, locale, lead.slPercent)
        case Err(e) => Err(Unreadable(StopLossField, e))
        case Ok(sl) =>
          match CurrentOf(v, stored)
          case Err(f) => Err(f)
          case Ok(leverage) =>
            var o := OrderOf(v, lead, settings, entry, maxLoss, sl, leverage);
            match Check(o, SizingOf(v))
            case Some(e) => Err(Invalid(e))
            case None =>
              match ParseTargets(v, locale, tp)
              case Err(f) => Err(f)
              case Ok(targets) => Ok(Build(o, SizingOf(v), TpModeOf(lead.tpMode), targets))
  }

  /** Once every field reads, `calculate` is the pure calculation on the values read. */
  lemma RunIsCalculate(v: Variant, form: Form, settings: Settings, stored: int,
                       entry: real, maxLoss: real, sl: real, leverage: real, targets: seq<real>)
    requires var locale := FormLocale(v, form);
      && Parse(v, locale, form.entry) == Ok(entry)
      && Parse(v, locale, form.maxLoss) == Ok(maxLoss)
      && Parse(v, locale, form.slPercent) == Ok(sl)
      && CurrentOf(v, stored) == Ok(leverage)
      && ParseTargets(v, locale, ActiveTargets(form)) == Ok(targets)
    ensures var o := OrderOf(v, LeadingOf(form), settings, entry, maxLoss, sl, leverage);
      var c := Calculate(o, SizingOf(v), TpModeOf(form.tpMode), targets);
      && (c.Ok? ==> Evaluate(v, form, settings, stored) == Ok(c.value))
      && (c.Err? ==> Evaluate(v, form, settings, stored) == Err(Invalid(c.error)))
  {
  }

  /** A failed check is reported whatever the TP fields hold: they are not even read. */
  lemma ChecksBeforeTargets(v: Variant, form: Form, settings: Settings, stored: int,
                            entry: real, maxLoss: real, sl: real, leverage: real, other: TpFields)
    requires var locale := FormLocale(v, form);
      && Parse(v, locale, form.entry) == Ok(entry)
      && Parse(v, locale, form.maxLoss) == Ok(maxLoss)
      && Parse(v, locale, form.slPercent) == Ok(sl)
      && CurrentOf(v, stored) == Ok(leverage)
    requires Check(OrderOf(v, LeadingOf(form), settings, entry, maxLoss, sl, leverage), SizingOf(v)).Some?
    ensures var e := Check(OrderOf(v, LeadingOf(form), settings, entry, maxLoss, sl, leverage), SizingOf(v)).value;
      && Evaluate(v, form, settings, stored) == Err(Invalid(e))
      && Evaluate(v, form.(rMultiples := other), settings, stored) == Err(Invalid(e))
      && Evaluate(v, form.(percents := other), settings, stored) == Err(Invalid(e))
  {
    var o := OrderOf(v, LeadingOf(form), settings, entry, maxLoss, sl, leverage);
    StopsAtCheck(v, form, form, settings, stored, entry, maxLoss, sl, leverage);
    StopsAtCheck(v, form.(rMultiples := other), form, settings, stored, entry, maxLoss, sl, leverage);
    StopsAtCheck(v, form.(percents := other), form, settings, stored, entry, maxLoss, sl, leverage);
  }

  /** Two forms that agree outside the TP fields. */
  predicate SameLeading(f: Form, g: Form) {
    f.(rMultiples := g.rMultiples, percents := g.percents) == g
  }

  /** A failed check ends `calculate` before any TP field is read. */
  lemma StopsAtCheck(v: Variant, f: Form, form: Form, settings: Settings, stored: int,
                     entry: real, maxLoss: real, sl: real, leverage: real)
    requires SameLeading(f, form)
    requires var locale := FormLocale(v, form);
      && Parse(v, locale, form.entry) == Ok(entry)
      && Parse(v, locale, form.maxLoss) == Ok(maxLoss)
      && Parse(v, locale, form.slPercent) == Ok(sl)
      && CurrentOf(v, stored) == Ok(leverage)
    requires Check(OrderOf(v, LeadingOf(form), settings, entry, maxLoss, sl, leverage), SizingOf(v)).Some?
    ensures Evaluate(v, f, settings, stored)
         == Err(Invalid(Check(OrderOf(v, LeadingOf(form), settings, entry, maxLoss, sl, leverage), SizingOf(v)).value))
  {
    assert FormLocale(v, f) == FormLocale(v, form);
    assert LeadingOf(f) == LeadingOf(form);
  }

  /** The fields of the mode that is not selected never affect the outcome. */
  lemma InactiveModeIgnored(v: Variant, form: Form, settings: Settings, stored: int, other: TpFields)
    ensures TpModeOf(form.tpMode) == RMultiple ==>
      Evaluate(v, form.(percents := other), settings, stored) == Evaluate(v, form, settings, stored)
    ensures TpModeOf(form.tpMode) == Percent ==>
      Evaluate(v, form.(rMultiples := other), settings, stored) == Evaluate(v, form, settings, stored)
  {
    assert LeadingOf(form.(percents := other)) == LeadingOf(form);
    assert LeadingOf(form.(rMultiples := other)) == LeadingOf(form);
  }

  /** A blank entry price: the Nominalwert calculator reads it as 0 and
      refuses it as not positive; the other two refuse it as empty. */
  lemma BlankEntry(v: Variant, form: Form, settings: Settings, stored: int)
    requires AllSpace(form.entry)
    ensures v != Nominalwert ==> Evaluate(v, form, settings, stored) == Err(Unreadable(EntryField, EmptyNumber))
    ensures v == Nominalwert
         && ParseNum(form.maxLoss, FormLocale(v, form)).Ok?
         && ParseNum(form.slPercent, FormLocale(v, form)).Ok?
         ==> Evaluate(v, form, settings, stored) == Err(Invalid(EntryPriceNotPositive))
  {
    var f := form;
    if v == Nominalwert {
      if ParseNum(form.maxLoss, FormLocale(v, form)).Ok? && ParseNum(form.slPercent, FormLocale(v, form)).Ok? {
        BlankEntryNominal(f, settings, stored);
      }
    } else {
      BlankEntryUs(v, f, settings, stored);
    }
  }

  lemma BlankEntryUs(v: Variant, f: Form, settings: Settings, stored: int)
    requires AllSpace(f.entry) && v != Nominalwert
    ensures Evaluate(v, f, settings, stored) == Err(Unreadable(EntryField, EmptyNumber))
  {
    UsParsersAgree(f.entry);
  }

  lemma BlankEntryNominal(f: Form, settings: Settings, stored: int)
    requires AllSpace(f.entry)
    requires ParseNum(f.maxLoss, FormLocale(Nominalwert, f)).Ok?
    requires ParseNum(f.slPercent, FormLocale(Nominalwert, f)).Ok?
    ensures Evaluate(Nominalwert, f, settings, stored) == Err(Invalid(EntryPriceNotPositive))
  {
    var locale := FormLocale(Nominalwert, f);
    var o := OrderOf(Nominalwert, LeadingOf(f), settings, 0.0, ParseNum(f.maxLoss, locale).value,
                     ParseNum(f.slPercent, locale).value, stored as real);
    assert Check(o, FeeFree) == Some(EntryPriceNotPositive);
  }

  /** In both Positionsrechner apps, a computed position loses exactly the
      budget at the SL, fees included; Nominalwert loses it before fees. */
  lemma RunLosesBudget(v: Variant, form: Form, settings: Settings, stored: int)
    requires Evaluate(v, form, settings, stored).Ok?
    ensures var p := Evaluate(v, form, settings, stored).value;
      var budget := Parse(v, FormLocale(v, form), form.maxLoss).value;
      && (v != Nominalwert ==> p.slPnl.net == -budget)
      && (v == Nominalwert ==> p.slPnl.gross == -budget)
  {
    var f := form;
    var locale := FormLocale(v, f);
    var o := OrderOf(v, LeadingOf(f), settings, Parse(v, locale, f.entry).value, Parse(v, locale, f.maxLoss).value,
                     Parse(v, locale, f.slPercent).value, CurrentOf(v, stored).value);
    var targets := ParseTargets(v, locale, ActiveTargets(f)).value;
    BuildLosesBudget(o, SizingOf(v), TpModeOf(f.tpMode), targets);
  }

  /** A computed position is wired to the form as `calculate` wires it: the
      leverage read sets the margin, the direction text puts the SL below or
      above the entry, and each fee side's own text picks its fee. */
  lemma EvaluateWiring(v: Variant, form: Form, settings: Settings, stored: int, p: Position, entry: real)
    requires Evaluate(v, form, settings, stored) == Ok(p)
    requires Parse(v, FormLocale(v, form), form.entry) == Ok(entry)
    ensures Wired(p.sized, CurrentOf(v, stored).value, entry, Lower(form.direction) == "long",
                  Fee(v, settings, form.entrySide), Fee(v, settings, form.exitSide))
  {
    var o := EvaluatedOrder(v, form, settings, stored, p, entry);
    SizedWiring(o, SizingOf(v), p.sized, CurrentOf(v, stored).value, entry,
                Lower(form.direction) == "long", Fee(v, settings, form.entrySide), Fee(v, settings, form.exitSide));
  }

  /** The order behind a computed position, with its fields as read from the form. */
  lemma EvaluatedOrder(v: Variant, form: Form, settings: Settings, stored: int, p: Position, entry: real)
    returns (o: Order)
    requires Evaluate(v, form, settings, stored) == Ok(p)
    requires Parse(v, FormLocale(v, form), form.entry) == Ok(entry)
    ensures Valid(o, SizingOf(v)) && p.sized == Size(o, SizingOf(v))
    ensures o.leverage == CurrentOf(v, stored).value && o.entry == entry
    ensures o.direction == Long <==> Lower(form.direction) == "long"
    ensures o.entryFee == Fee(v, settings, form.entrySide) && o.exitFee == Fee(v, settings, form.exitSide)
  {
    var locale := FormLocale(v, form);
    o := OrderOf(v, LeadingOf(form), settings, entry, Parse(v, locale, form.maxLoss).value,
                 Parse(v, locale, form.slPercent).value, CurrentOf(v, stored).value);
    var targets := ParseTargets(v, locale, ActiveTargets(form)).value;
    assert p == Build(o, SizingOf(v), TpModeOf(form.tpMode), targets);
  }

  /** A size built from this leverage, entry price, direction and pair of
      fees: the margin times the leverage and the units times the entry are
      the nominal value, the SL lies below the entry exactly for Long, and
      each fee amount is its percentage of the nominal value. */
  predicate Wired(s: Sized, leverage: real, entry: real, long: bool, entryFee: real, exitFee: real) {
    && s.margin * leverage == s.nominal
    && s.units * entry == s.nominal
    && (long <==> s.slPrice < entry)
    && s.entryFeeAmount == s.nominal * entryFee / 100.0
    && s.exitFeeAmount == s.nominal * exitFee / 100.0
  }

  /** The size of an order, stated through the values the order was built from. */
  lemma SizedWiring(o: Order, sizing: Sizing, s: Sized, leverage: real, entry: real, long: bool, entryFee: real, exitFee: real)
    requires Valid(o, sizing) && s == Size(o, sizing)
    requires o.leverage == leverage && o.entry == entry && (o.direction == Long <==> long)
    requires o.entryFee == entryFee && o.exitFee == exitFee
    ensures Wired(s, leverage, entry, long, entryFee, exitFee)
  {
  }
}

=== FILE: leverage.dfy ===
/**
 * The leverage slider. Tk hands the callback the slider position as text;
 * each variant turns it into an integer, falls back to the current value
 * when `float()` refuses the text, and clamps:
 *  - Nominalwert rounds half up and clamps to 1..125;
 *  - the first Positionsrechner truncates and clamps to 1..125;
 *  - Positionsrechner Pro rounds half up to an index into six fixed steps.
 */
module Leverage {
  import opened Base
  import opened Decimal

  const MinLeverage: int := 1
  const MaxLeverage: int := 125

  /** The discrete leverages of Positionsrechner Pro. */
  const Steps: seq<int> := [1, 25, 50, 75, 100, 125]

  /** Python's `int()` of a float: drop the fraction, rounding toward zero. */
  function Trunc(x: real): (n: int)
    ensures x >= 0.0 ==> n as real <= x < n as real + 1.0
    ensures x < 0.0 ==> n as real - 1.0 < x <= n as real
  {
    if x >= 0.0 then x.Floor else -((-x).Floor)
  }

  function Max(a: int, b: int): int {
    if a >= b then a else b
  }

  function Min(a: int, b: int): int {
    if a <= b then a else b
  }

  /** `max(lo, min(v, hi))`. */
  function Clamp(v: int, lo: int, hi: int): (r: int)
    requires lo <= hi
    ensures lo <= r <= hi
    ensures lo <= v <= hi ==> r == v
    ensures v < lo ==> r == lo
    ensures hi < v ==> r == hi
  {
    Max(lo, Min(v, hi))
  }

  /** The slider text as a number, or the current value when it is not one. */
  function Position(value: string, fallback: int, rounded: bool): int {
    match ToFloat(value)
    case Ok(x) => if rounded then Trunc(x + 0.5) else Trunc(x)
    case Err(_) => fallback
  }

  /** Nominalwert `_on_leverage_slide`: the nearest whole leverage, halves rounding up. */
  function SlideRounded(value: string, current: int): (lev: int)
    ensures MinLeverage <= lev <= MaxLeverage
    ensures ToFloat(value).Ok? ==>
      var x := ToFloat(value).value;
      && (0.5 <= x < 125.5 ==> lev as real - 0.5 <= x < lev as real + 0.5)
      && (x < 0.5 ==> lev == MinLeverage)
      && (125.5 <= x ==> lev == MaxLeverage)
    ensures ToFloat(value).Err? ==> lev == Clamp(current, MinLeverage, MaxLeverage)
  {
    Clamp(Position(value, current, true), MinLeverage, MaxLeverage)
  }

  /** First Positionsrechner `_on_leverage_slide`: the whole part of the position. */
  function SlideTruncated(value: string, current: int): (lev: int)
    ensures MinLeverage <= lev <= MaxLeverage
    ensures ToFloat(value).Ok? ==>
      var x := ToFloat(value).value;
      && (1.0 <= x < 126.0 ==> lev as real <= x < lev as real + 1.0)
      && (x < 1.0 ==> lev == MinLeverage)
      && (126.0 <= x ==> lev == MaxLeverage)
    ensures ToFloat(value).Err? ==> lev == Clamp(current, MinLeverage, MaxLeverage)
  {
    Clamp(Position(value, current, false), MinLeverage, MaxLeverage)
  }

  /** Pro `_on_leverage_slide`: the nearest step index, halves rounding up. */
  function SnapIndex(value: string, current: int): (idx: int)
    ensures 0 <= idx < |Steps|
    ensures ToFloat(value).Ok? ==>
      var x := ToFloat(value).value;
      && (0.5 <= x < 5.5 ==> idx as real - 0.5 <= x < idx as real + 0.5)
      && (x < 0.5 ==> idx == 0)
      && (5.5 <= x ==> idx == |Steps| - 1)
    ensures ToFloat(value).Err? ==> idx == Clamp(current, 0, |Steps| - 1)
  {
    Clamp(Position(value, current, true), 0, |Steps| - 1)
  }

  /** Python's `steps[idx]`: negative indices count from the end, others fail. */
  function StepAt(idx: int): (lev: Option<int>)
    ensures lev.Some? <==> -|Steps| <= idx < |Steps|
    ensures lev.Some? ==> lev.value in Steps
    ensures 0 <= idx < |Steps| ==> lev == Some(Steps[idx])
  {
    if 0 <= idx < |Steps| then Some(Steps[idx])
    else if -|Steps| <= idx < 0 then Some(Steps[idx + |Steps|])
    else None
  }

  /** A negative index names the same step as the index one list-length higher. */
  lemma NegativeIndexWraps(idx: int)
    requires -|Steps| <= idx < 0
    ensures StepAt(idx) == StepAt(idx + |Steps|)
  {
  }

  /** Pro `_current_leverage`: the step the stored index selects. */
  function CurrentLeverage(idx: int): (lev: Option<real>)
    ensures lev.Some? <==> StepAt(idx).Some?
    ensures lev.Some? ==> lev.value == StepAt(idx).value as real && lev.value >= 1.0
  {
    match StepAt(idx)
    case Some(n) => Some(n as real)
    case None => None
  }

  /** Whatever the slider reports, the Pro variant ends on one of its six leverages. */
  lemma SnappedLeverageIsStep(value: string, current: int)
    ensures var lev := CurrentLeverage(SnapIndex(value, current));
      && lev.Some?
      && lev.value in {1.0, 25.0, 50.0, 75.0, 100.0, 125.0}
  {
    var idx := SnapIndex(value, current);
    assert StepAt(idx) == Some(Steps[idx]);
  }

  /** Steps grow by 25 after the first: index `i` selects `max(1, 25 * i)`. */
  lemma StepsAreQuarters(i: int)
    requires 0 <= i < |Steps|
    ensures Steps[i] == Max(1, 25 * i)
  {
  }

  /** Moving the slider further right never lowers the leverage. */
  lemma SlideRoundedMonotone(a: string, b: string, current: int)
    requires ToFloat(a).Ok? && ToFloat(b).Ok? && ToFloat(a).value <= ToFloat(b).value
    ensures SlideRounded(a, current) <= SlideRounded(b, current)
  {
    TruncMonotone(ToFloat(a).value + 0.5, ToFloat(b).value + 0.5);
  }

  lemma SlideTruncatedMonotone(a: string, b: string, current: int)
    requires ToFloat(a).Ok? && ToFloat(b).Ok? && ToFloat(a).value <= ToFloat(b).value
    ensures SlideTruncated(a, current) <= SlideTruncated(b, current)
  {
    TruncMonotone(ToFloat(a).value, ToFloat(b).value);
  }

  lemma SnapIndexMonotone(a: string, b: string, current: int)
    requires ToFloat(a).Ok? && ToFloat(b).Ok? && ToFloat(a).value <= ToFloat(b).value
    ensures SnapIndex(a, current) <= SnapIndex(b, current)
  {
    TruncMonotone(ToFloat(a).value + 0.5, ToFloat(b).value + 0.5);
  }

  lemma TruncMonotone(x: real, y: real)
    requires x <= y
    ensures Trunc(x) <= Trunc(y)
  {
  }

  /** A slider resting on a whole leverage keeps it in both 1..125 variants. */
  lemma WholePositionKept(value: string, current: int, n: int)
    requires MinLeverage <= n <= MaxLeverage && ToFloat(value) == Ok(n as real)
    ensures SlideRounded(value, current) == n
    ensures SlideTruncated(value, current) == n
  {
  }
}

=== FILE: number_format.dfy ===
/**
 * Reading and writing numbers in the two display conventions of the
 * calculator: German (`.` groups thousands, `,` marks decimals) and US
 * (`,` groups thousands, `.` marks decimals).
 *
 * `ParseNum` is the locale-aware `parse_num` of the Nominalwert calculator;
 * `ParseNumUs` is the US-only `parse_num` of the two Positionsrechner
 * variants. `FormatNum` is the separator exchange of `format_num`; the
 * grouped US rendering it starts from is an input here (see Rendering).
 */
module NumberFormat {
  import opened Base
  import opened Text
  import opened Decimal

  /** The `number_format` setting: "german", or anything else for US. */
  datatype Locale = German | Us

  /** Only the exact setting "german" selects the German convention. */
  function LocaleOf(setting: string): (l: Locale)
    ensures l == German <==> setting == "german"
  {
    if setting == "german" then German else Us
  }

  /** The German clean-up of a stripped, non-empty input: decide which
      separator is the decimal one and rewrite the text for `float()`. */
  function CleanGerman(s: string): string {
    if ',' in s && '.' in s then ReplaceAll(ReplaceAll(s, ".", ""), ",", ".")
    else if ',' in s then CommaAsPoint(s)
    else if '.' in s then DotsAsGroups(s)
    else s
  }

  /** Only commas: a single comma followed by at most three characters is the decimal point. */
  function CommaAsPoint(s: string): string {
    var parts := Split(s, ',');
    if |parts| == 2 && |parts[1]| <= 3 then ReplaceAll(s, ",", ".") else s
  }

  /** Only dots: a last group of one to three characters is the fraction. */
  function DotsAsGroups(s: string): string {
    var parts := Split(s, '.');
    if |parts| > 1 && 0 < |parts[|parts| - 1]| <= 3 then
      Join(parts[..|parts| - 1]) + "." + parts[|parts| - 1]
    else
      ReplaceAll(s, ".", "")
  }

  function Clean(s: string, locale: Locale): string {
    match locale
    case German => CleanGerman(s)
    case Us => ReplaceAll(s, ",", "")
  }

  /** `parse_num(s, number_format)` of the Nominalwert calculator. */
  function ParseNum(s: string, locale: Locale): (r: Result<real, ParseError>)
    ensures AllSpace(s) ==> r == Ok(0.0)
    ensures r.Err? ==> r.error.NotANumber? && !AllSpace(s)
  {
    var t := Strip(s);
    if t == [] then Ok(0.0) else ToFloat(Clean(t, locale))
  }

  /** `parse_num(s)` of the two Positionsrechner variants (US only). */
  function ParseNumUs(s: string): (r: Result<real, ParseError>)
    ensures (forall i :: 0 <= i < |s| ==> IsSpace(s[i]) || s[i] == ',') ==> r.Err?
  {
    var t := ReplaceAll(Strip(s), ",", "");
    BlankOrCommasRejected(s);
    if t == [] then Err(EmptyNumber) else ToFloat(t)
  }

  lemma BlankOrCommasRejected(s: string)
    ensures (forall i :: 0 <= i < |s| ==> IsSpace(s[i]) || s[i] == ',') ==>
      var e := ReplaceAll(Strip(s), ",", ""); e != [] ==> ToFloat(e).Err?
  {
    if forall i :: 0 <= i < |s| ==> IsSpace(s[i]) || s[i] == ',' {
      BlankOrCommasRejectedCase(s);
    }
  }

  lemma BlankOrCommasRejectedCase(s: string)
    requires forall i :: 0 <= i < |s| ==> IsSpace(s[i]) || s[i] == ','
    ensures var e := ReplaceAll(Strip(s), ",", ""); e != [] ==> ToFloat(e).Err?
  {
    var t := Strip(s);
    var e := ReplaceAll(t, ",", "");
    StripSlice(s);
    ReplaceIsErase(t, ',');
    assert forall j :: 0 <= j < |t| ==> IsSpace(t[j]) || t[j] == ',' by {
      forall j | 0 <= j < |t| ensures IsSpace(t[j]) || t[j] == ',' {
        assert t[j] == s[LeadingSpaces(s) + j];
      }
    }
    forall i | 0 <= i < |e| ensures IsSpace(e[i]) {
      EraseSubset(t, ',', e[i]);
    }
    assert Strip(e) == [];
  }

  /** In US mode the only rewrite before `float()` is deleting every `,`. */
  lemma UsCleanErasesCommas(s: string)
    requires !AllSpace(s)
    ensures ParseNum(s, Us) == ToFloat(Erase(Strip(s), ','))
  {
    ReplaceIsErase(Strip(s), ',');
  }

  /** The two US parsers agree except on blank input, which the Nominalwert
      parser reads as zero and the Positionsrechner parser refuses. */
  lemma UsParsersAgree(s: string)
    ensures AllSpace(s) ==> ParseNum(s, Us) == Ok(0.0) && ParseNumUs(s) == Err(EmptyNumber)
    ensures !AllSpace(s) ==> (ParseNum(s, Us).Ok? <==> ParseNumUs(s).Ok?)
    ensures ParseNumUs(s).Ok? ==> ParseNum(s, Us) == ParseNumUs(s)
  {
    var t := Strip(s);
    if t != [] {
      var e := ReplaceAll(t, ",", "");
      if e == [] {
        assert Strip(e) == [];
        assert Split(e, '.') == [[]];
        assert LiteralValue(Strip(e)) == None;
      }
    }
  }

  /** German input with both separators: drop every `.`, then `,` becomes the point. */
  lemma GermanBothSeparators(t: string)
    requires ',' in t && '.' in t
    ensures CleanGerman(t) == Subst(Erase(t, '.'), ',', '.')
  {
    ReplaceIsErase(t, '.');
    ReplaceIsSubst(Erase(t, '.'), ',', '.');
  }

  /** German input with commas only: the comma is the decimal point exactly
      when there is one and at most three characters follow it; otherwise
      the text goes to `float()` untouched. */
  lemma GermanCommaOnly(t: string)
    requires ',' in t && '.' !in t
    ensures var k := LastIndex(t, ',');
      CleanGerman(t) == if Count(t, ',') == 1 && |t| - k - 1 <= 3 then Subst(t, ',', '.') else t
  {
    assert CleanGerman(t) == CommaAsPoint(t);
    CommaAsPointShape(t);
    ReplaceIsSubst(t, ',', '.');
  }

  lemma CommaAsPointShape(t: string)
    requires ',' in t
    ensures var k := LastIndex(t, ',');
      CommaAsPoint(t) == if Count(t, ',') == 1 && |t| - k - 1 <= 3 then ReplaceAll(t, ",", ".") else t
  {
    var parts := Split(t, ',');
    SplitLastPart(t, ',');
    assert |parts| == 2 <==> Count(t, ',') == 1;
  }

  /** German input with dots only: a last group of one to three characters
      is the fraction and every earlier dot is dropped; otherwise every dot
      is a thousands separator. */
  lemma GermanDotsOnly(t: string)
    requires '.' in t && ',' !in t
    ensures var k := LastIndex(t, '.');
      && (0 < |t| - k - 1 <= 3 ==> CleanGerman(t) == Erase(t[..k], '.') + "." + t[k + 1..])
      && (!(0 < |t| - k - 1 <= 3) ==> CleanGerman(t) == Erase(t, '.'))
  {
    assert CleanGerman(t) == DotsAsGroups(t);
    var k := LastIndex(t, '.');
    DotsAsGroupsShape(t);
    JoinSplit(t[..k], '.');
    ReplaceIsErase(t, '.');
  }

  lemma DotsAsGroupsShape(t: string)
    requires '.' in t
    ensures var k := LastIndex(t, '.');
      DotsAsGroups(t) == if 0 < |t| - k - 1 <= 3 then Join(Split(t[..k], '.')) + "." + t[k + 1..] else ReplaceAll(t, ".", "")
  {
    var k := LastIndex(t, '.');
    var parts := Split(t, '.');
    SplitAtLast(t, '.');
    var init := Split(t[..k], '.');
    assert parts == init + [t[k + 1..]];
    assert parts[..|parts| - 1] == init;
  }

  /** The characters of `s` other than the two separators, in order. */
  function Unseparated(s: string): string {
    Erase(Erase(s, '.'), ',')
  }

  lemma UnseparatedAppend(a: string, b: string)
    ensures Unseparated(a + b) == Unseparated(a) + Unseparated(b)
  {
    EraseAppend(a, b, '.');
    EraseAppend(Erase(a, '.'), Erase(b, '.'), ',');
  }

  lemma {:induction false} EraseAfterSubst(x: string)
    ensures Erase(Subst(x, ',', '.'), '.') == Unseparated(x)
    decreases |x|
  {
    if x != [] {
      var p := x[..|x| - 1];
      var c := x[|x| - 1];
      assert x == p + [c];
      EraseAfterSubst(p);
      EraseAfterSubstOne(c);
      SubstAppend(p, [c], ',', '.');
      EraseAppend(Subst(p, ',', '.'), Subst([c], ',', '.'), '.');
      UnseparatedAppend(p, [c]);
    }
  }

  lemma EraseAfterSubstOne(c: char)
    ensures Erase(Subst([c], ',', '.'), '.') == Unseparated([c])
  {
    var y := if c == ',' then '.' else c;
    assert Subst([c], ',', '.') == [y];
    EraseOne(y, '.');
    EraseOne(c, '.');
    if c != '.' {
      EraseOne(c, ',');
    }
  }

  /** German clean-up only ever removes separators or turns one into the
      decimal point: every digit, sign or other character survives in order. */
  lemma GermanKeepsContent(t: string)
    ensures Unseparated(CleanGerman(t)) == Unseparated(t)
  {
    if ',' in t && '.' in t {
      KeepsContentBoth(t);
    } else if ',' in t {
      KeepsContentComma(t);
    } else if '.' in t {
      KeepsContentDots(t);
    }
  }

  lemma KeepsContentBoth(t: string)
    requires ',' in t && '.' in t
    ensures Unseparated(CleanGerman(t)) == Unseparated(t)
  {
    var e := Erase(t, '.');
    GermanBothSeparators(t);
    EraseAfterSubst(e);
    EraseAbsent(e, '.');
    EraseAbsent(Erase(e, ','), ',');
    calc {
      Unseparated(CleanGerman(t));
      Erase(Erase(Subst(e, ',', '.'), '.'), ',');
      Erase(Unseparated(e), ',');
      Erase(Erase(e, ','), ',');
      Erase(e, ',');
      Unseparated(t);
    }
  }

  lemma KeepsContentComma(t: string)
    requires ',' in t && '.' !in t
    ensures Unseparated(CleanGerman(t)) == Unseparated(t)
  {
    GermanCommaOnly(t);
    var k := LastIndex(t, ',');
    if Count(t, ',') == 1 && |t| - k - 1 <= 3 {
      var u := Subst(t, ',', '.');
      EraseAfterSubst(t);
      SubstAbsentAfter(t);
      EraseAbsent(t, '.');
      EraseAbsent(Erase(t, ','), ',');
      calc {
        Unseparated(CleanGerman(t));
        Erase(Erase(u, '.'), ',');
        Erase(Unseparated(t), ',');
        Erase(Erase(Erase(t, '.'), ','), ',');
        Erase(Erase(t, ','), ',');
        Erase(t, ',');
        Unseparated(t);
      }
    }
  }

  /** After substituting `,` by `.`, no `,` is left. */
  lemma SubstAbsentAfter(t: string)
    ensures ',' !in Subst(t, ',', '.')
  {
    var u := Subst(t, ',', '.');
    forall i | 0 <= i < |u| ensures u[i] != ',' {
    }
  }

  lemma KeepsContentDots(t: string)
    requires '.' in t && ',' !in t
    ensures Unseparated(CleanGerman(t)) == Unseparated(t)
  {
    GermanDotsOnly(t);
    var k := LastIndex(t, '.');
    if 0 < |t| - k - 1 <= 3 {
      var a, b := t[..k], t[k + 1..];
      var c := CleanGerman(t);
      assert c == Erase(a, '.') + "." + b;
      SplitAround(t, k);
      KeepsContentLastDot(a, b);
    } else {
      EraseTwice(t);
    }
  }

  lemma KeepsContentLastDot(a: string, b: string)
    ensures Unseparated(Erase(a, '.') + "." + b) == Unseparated(a + "." + b)
  {
    UnseparatedAppend(a + ".", b);
    UnseparatedAppend(a, ".");
    UnseparatedAppend(Erase(a, '.') + ".", b);
    UnseparatedAppend(Erase(a, '.'), ".");
    EraseTwice(a);
  }

  lemma EraseTwice(a: string)
    ensures Unseparated(Erase(a, '.')) == Unseparated(a)
  {
    EraseAbsent(Erase(a, '.'), '.');
  }

  /** The exchange of the two separators that turns a US rendering into a German one. */
  function SwapChar(c: char): char {
    if c == ',' then '.' else if c == '.' then ',' else c
  }

  function SwapSeparators(s: string): (r: string)
    ensures |r| == |s|
    ensures forall i :: 0 <= i < |s| ==> r[i] == SwapChar(s[i])
  {
    seq(|s|, i requires 0 <= i < |s| => SwapChar(s[i]))
  }

  /** The three-step `replace` chain of `format_num`. */
  function GermanChain(us: string): string {
    ReplaceAll(ReplaceAll(ReplaceAll(us, ",", "TEMP"), ".", ","), "TEMP", ".")
  }

  /** `format_num(value, decimals, number_format)` applied to the grouped US
      rendering `us` of the value: German output is the US text with `,` and
      `.` exchanged and every other character kept. */
  function FormatNum(us: string, locale: Locale): (r: string)
    ensures locale == German && 'T' !in us ==>
      |r| == |us| && forall i :: 0 <= i < |us| ==> r[i] == SwapChar(us[i])
    ensures locale == Us ==> r == us
  {
    match locale
    case German => (if 'T' !in us then ChainIsSwap(us); GermanChain(us) else GermanChain(us))
    case Us => us
  }

  lemma TempStep(y: string)
    ensures ReplaceAll("TEMP" + y, "TEMP", ".") == "." + ReplaceAll(y, "TEMP", ".")
  {
    assert ("TEMP" + y)[..4] == "TEMP";
    assert ("TEMP" + y)[4..] == y;
  }

  lemma PlainStep(c: char, y: string)
    requires c != 'T'
    ensures ReplaceAll([c] + y, "TEMP", ".") == [c] + ReplaceAll(y, "TEMP", ".")
  {
    if |[c] + y| >= 4 {
      assert ([c] + y)[..4][0] == c;
      assert ([c] + y)[1..] == y;
    }
  }

  /** As long as the US text holds no `T`, the chain is exactly the exchange. */
  lemma {:induction false} ChainIsSwap(us: string)
    requires 'T' !in us
    ensures GermanChain(us) == SwapSeparators(us)
    decreases |us|
  {
    if us != [] {
      var c := us[0];
      var rest := us[1..];
      assert us == [c] + rest;
      ReplaceCharStep(us, ',', "TEMP");
      var p1 := if c == ',' then "TEMP" else [c];
      var a := ReplaceAll(rest, ",", "TEMP");
      ReplaceCharAppend(p1, a, '.', ",");
      var y := ReplaceAll(a, ".", ",");
      if c == ',' {
        ReplaceCharAbsent("TEMP", '.', ",");
        TempStep(y);
      } else {
        ReplaceCharStep([c], '.', ",");
        assert [c][1..] == [];
        var c2 := if c == '.' then ',' else c;
        assert ReplaceAll(p1, ".", ",") == [c2];
        PlainStep(c2, y);
      }
      ChainIsSwap(rest);
      assert SwapSeparators(us) == [SwapChar(c)] + SwapSeparators(rest);
    }
  }

  /** Exchanging the separators twice restores the text. */
  lemma SwapInvolution(s: string)
    ensures SwapSeparators(SwapSeparators(s)) == s
  {
  }

  /** German formatting applied twice restores the US text. */
  lemma FormatGermanTwice(us: string)
    requires 'T' !in us
    ensures FormatNum(FormatNum(us, German), German) == us
  {
    var g := FormatNum(us, German);
    assert 'T' !in g by {
      forall i | 0 <= i < |g| ensures g[i] != 'T' {
        assert us[i] != 'T';
      }
    }
    SwapInvolution(us);
    assert g == SwapSeparators(us);
    assert FormatNum(g, German) == SwapSeparators(g);
  }
}

=== FILE: rendering.dfy ===
/**
 * The text `f"{value:,.{decimals}f}"` that `format_num` starts from, taken
 * apart: a sign, a leading group of one to three digits, further groups of
 * exactly three digits, and the fraction digits. How Python rounds a double
 * to `decimals` places is not modelled; a rendering is described by its
 * parts, and its value is the exact decimal those parts spell.
 *
 * The lemmas here connect formatting with parsing: the US text always reads
 * back as its value; the German text does so except in two shapes, which
 * are characterised exactly.
 */
module Rendering {
  import opened Base
  import opened Text
  import opened Decimal
  import opened NumberFormat

  datatype Rendered = Rendered(negative: bool, lead: string, groups: seq<string>, frac: string)

  predicate IsGroup(g: string) {
    |g| == 3 && AllDigits(g)
  }

  predicate AllGroups(groups: seq<string>) {
    forall i :: 0 <= i < |groups| ==> IsGroup(groups[i])
  }

  /** The shape Python's `,` format option produces. */
  predicate WellFormed(r: Rendered) {
    && 1 <= |r.lead| <= 3 && AllDigits(r.lead)
    && AllGroups(r.groups)
    && AllDigits(r.frac)
  }

  /** Each group preceded by the thousands separator `sep`. */
  function Grouped(groups: seq<string>, sep: char): string {
    if groups == [] then []
    else Grouped(groups[..|groups| - 1], sep) + [sep] + groups[|groups| - 1]
  }

  /** The groups without separators. */
  function Concat(groups: seq<string>): string {
    if groups == [] then []
    else Concat(groups[..|groups| - 1]) + groups[|groups| - 1]
  }

  /** The text of `r` with `sep` between groups and `point` before the fraction. */
  function Layout(r: Rendered, sep: char, point: char): string {
    SignText(r.negative) + r.lead + Grouped(r.groups, sep) + PointFraction(point, r.frac)
  }

  function UsText(r: Rendered): string {
    Layout(r, ',', '.')
  }

  function GermanText(r: Rendered): string {
    Layout(r, '.', ',')
  }

  /** All integer digits of `r`, without separators. */
  function IntDigits(r: Rendered): (d: string)
    requires WellFormed(r)
    ensures AllDigits(d) && d != []
  {
    ConcatDigits(r.groups);
    DigitsAppend(r.lead, Concat(r.groups));
    r.lead + Concat(r.groups)
  }

  /** The number `r` spells. */
  function Value(r: Rendered): real
    requires WellFormed(r)
  {
    DecimalNumber(r.negative, IntDigits(r), r.frac)
  }

  /** The decimal literal `float()` is expected to receive for `r`. */
  function Literal(r: Rendered): string
    requires WellFormed(r)
  {
    SignText(r.negative) + r.lead + Concat(r.groups) + PointFraction('.', r.frac)
  }

  lemma GroupsInit(groups: seq<string>)
    requires AllGroups(groups) && groups != []
    ensures AllGroups(groups[..|groups| - 1])
    ensures IsGroup(groups[|groups| - 1])
  {
    var init := groups[..|groups| - 1];
    forall i | 0 <= i < |init| ensures IsGroup(init[i]) {
      assert init[i] == groups[i];
    }
  }

  lemma DigitsAppend(a: string, b: string)
    requires AllDigits(a) && AllDigits(b)
    ensures AllDigits(a + b)
  {
    assert forall i :: 0 <= i < |a + b| ==> (a + b)[i] == if i < |a| then a[i] else b[i - |a|];
  }

  lemma {:induction false} ConcatDigits(groups: seq<string>)
    requires AllGroups(groups)
    ensures AllDigits(Concat(groups))
    decreases |groups|
  {
    if groups != [] {
      var init := groups[..|groups| - 1];
      GroupsInit(groups);
      ConcatDigits(init);
      DigitsAppend(Concat(init), groups[|groups| - 1]);
    }
  }

  // ---------------------------------------------------------------------
  // Characters of a rendering

  /** The characters a rendering is made of. */
  predicate NumberChar(c: char) {
    IsDigit(c) || c == '-' || c == ',' || c == '.'
  }

  predicate NumberChars(s: string) {
    forall i :: 0 <= i < |s| ==> NumberChar(s[i])
  }

  lemma NumberCharsAppend(a: string, b: string)
    requires NumberChars(a) && NumberChars(b)
    ensures NumberChars(a + b)
  {
    assert forall i :: 0 <= i < |a + b| ==> (a + b)[i] == if i < |a| then a[i] else b[i - |a|];
  }

  lemma {:induction false} GroupedChars(groups: seq<string>, sep: char)
    requires AllGroups(groups) && NumberChar(sep)
    ensures NumberChars(Grouped(groups, sep))
    decreases |groups|
  {
    if groups != [] {
      var init := groups[..|groups| - 1];
      GroupsInit(groups);
      GroupedChars(init, sep);
      NumberCharsAppend(Grouped(init, sep), [sep]);
      NumberCharsAppend(Grouped(init, sep) + [sep], groups[|groups| - 1]);
    }
  }

  lemma LayoutChars(r: Rendered, sep: char, point: char)
    requires WellFormed(r) && NumberChar(sep) && NumberChar(point)
    ensures NumberChars(Layout(r, sep, point))
  {
    GroupedChars(r.groups, sep);
    NumberCharsAppend(SignText(r.negative), r.lead);
    NumberCharsAppend(SignText(r.negative) + r.lead, Grouped(r.groups, sep));
    if r.frac != [] {
      NumberCharsAppend([point], r.frac);
    }
    NumberCharsAppend(SignText(r.negative) + r.lead + Grouped(r.groups, sep), PointFraction(point, r.frac));
  }

  /** Rendered text has no surrounding whitespace for `strip()` to remove. */
  lemma NumberCharsStrip(s: string)
    requires NumberChars(s)
    ensures Strip(s) == s
    ensures 'T' !in s
  {
    assert forall i :: 0 <= i < |s| ==> !IsSpace(s[i]) by {
      forall i | 0 <= i < |s| ensures !IsSpace(s[i]) {
        assert NumberChar(s[i]);
      }
    }
    StripNoSpace(s);
  }

  lemma LiteralChars(r: Rendered)
    requires WellFormed(r)
    ensures NumberChars(Literal(r))
  {
    var d := IntDigits(r);
    NumberCharsAppend(SignText(r.negative), d);
    if r.frac != [] {
      NumberCharsAppend(['.'], r.frac);
    }
    NumberCharsAppend(SignText(r.negative) + d, PointFraction('.', r.frac));
    Assoc(SignText(r.negative), r.lead, Concat(r.groups), PointFraction('.', r.frac));
  }

  lemma Assoc(a: string, b: string, c: string, d: string)
    ensures a + (b + c) + d == a + b + c + d
  {
  }

  /** The literal reads as the value. */
  lemma LiteralReads(r: Rendered)
    requires WellFormed(r)
    ensures ToFloat(Literal(r)) == Ok(Value(r))
  {
    LiteralChars(r);
    NumberCharsStrip(Literal(r));
    LiteralOfDecimal(r.negative, IntDigits(r), r.frac);
    Assoc(SignText(r.negative), r.lead, Concat(r.groups), PointFraction('.', r.frac));
  }

  // ---------------------------------------------------------------------
  // Separators

  lemma {:induction false} EraseGrouped(groups: seq<string>, sep: char)
    requires AllGroups(groups) && !IsDigit(sep)
    ensures Erase(Grouped(groups, sep), sep) == Concat(groups)
    decreases |groups|
  {
    if groups != [] {
      var init := groups[..|groups| - 1];
      var last := groups[|groups| - 1];
      GroupsInit(groups);
      EraseGrouped(init, sep);
      DigitsNoSeparator(last, sep);
      SeparatedStep(Grouped(init, sep), sep, last);
    }
  }

  /** Erasing the separator before a group leaves the group. */
  lemma SeparatedStep(g: string, sep: char, last: string)
    requires sep !in last
    ensures Erase(g + [sep] + last, sep) == Erase(g, sep) + last
  {
    EraseAppend(g + [sep], last, sep);
    EraseAppend(g, [sep], sep);
    EraseAbsent(last, sep);
    EraseOne(sep, sep);
  }

  lemma DigitsNoSeparator(s: string, c: char)
    requires AllDigits(s) && !IsDigit(c)
    ensures c !in s
  {
    forall i | 0 <= i < |s| ensures s[i] != c {
      assert IsDigit(s[i]);
    }
  }

  lemma {:induction false} GroupedAbsent(groups: seq<string>, sep: char, c: char)
    requires AllGroups(groups) && !IsDigit(c) && c != sep
    ensures c !in Grouped(groups, sep)
    decreases |groups|
  {
    if groups != [] {
      var init := groups[..|groups| - 1];
      var last := groups[|groups| - 1];
      GroupsInit(groups);
      GroupedAbsent(init, sep, c);
      DigitsNoSeparator(last, c);
    }
  }

  /** Deleting the thousands separators of the US text leaves the literal. */
  lemma UsErased(r: Rendered)
    requires WellFormed(r)
    ensures Erase(UsText(r), ',') == Literal(r)
  {
    var p := PointFraction('.', r.frac);
    EraseGrouped(r.groups, ',');
    DigitsNoSeparator(r.lead, ',');
    DigitsNoSeparator(r.frac, ',');
    EraseMiddle(SignText(r.negative), r.lead, Grouped(r.groups, ','), p, ',');
  }

  /** Erasing a character that only the third part holds. */
  lemma EraseMiddle(a: string, b: string, c: string, d: string, x: char)
    requires x !in a && x !in b && x !in d
    ensures Erase(a + b + c + d, x) == a + b + Erase(c, x) + d
  {
    EraseFour(a, b, c, d, x);
    EraseAbsent(a, x);
    EraseAbsent(b, x);
    EraseAbsent(d, x);
  }

  /** Substituting a character that only the last part holds. */
  lemma SubstLast(a: string, b: string, c: string, d: string, x: char, y: char)
    requires x !in a && x !in b && x !in c
    ensures Subst(a + b + c + d, x, y) == a + b + c + Subst(d, x, y)
  {
    SubstFour(a, b, c, d, x, y);
    SubstAbsent(a, x, y);
    SubstAbsent(b, x, y);
    SubstAbsent(c, x, y);
  }

  lemma SubstPoint(frac: string)
    requires AllDigits(frac)
    ensures Subst(PointFraction(',', frac), ',', '.') == PointFraction('.', frac)
  {
    if frac != [] {
      DigitsNoSeparator(frac, ',');
      SubstAppend([','], frac, ',', '.');
      SubstAbsent(frac, ',', '.');
    }
  }

  lemma EraseFour(a: string, b: string, c: string, d: string, x: char)
    ensures Erase(a + b + c + d, x) == Erase(a, x) + Erase(b, x) + Erase(c, x) + Erase(d, x)
  {
    EraseAppend(a + b + c, d, x);
    EraseAppend(a + b, c, x);
    EraseAppend(a, b, x);
  }

  /** The US text of every rendering reads back as its value, in both parsers. */
  lemma UsRoundTrip(r: Rendered)
    requires WellFormed(r)
    ensures ParseNum(UsText(r), Us) == Ok(Value(r))
    ensures ParseNumUs(UsText(r)) == Ok(Value(r))
  {
    UsReads(r);
    UsParsersAgree(UsText(r));
  }

  lemma UsReads(r: Rendered)
    requires WellFormed(r)
    ensures !AllSpace(UsText(r))
    ensures ParseNum(UsText(r), Us) == Ok(Value(r))
  {
    var u := UsText(r);
    LayoutChars(r, ',', '.');
    NumberCharsStrip(u);
    assert !IsSpace(u[|SignText(r.negative)|]);
    UsCleanErasesCommas(u);
    UsErased(r);
    LiteralReads(r);
  }

  // ---------------------------------------------------------------------
  // From US to German text

  lemma SwapAppend(a: string, b: string)
    ensures SwapSeparators(a + b) == SwapSeparators(a) + SwapSeparators(b)
  {
  }

  lemma SwapDigits(s: string)
    requires AllDigits(s)
    ensures SwapSeparators(s) == s
  {
    assert forall i :: 0 <= i < |s| ==> IsDigit(s[i]);
  }

  lemma {:induction false} SwapGrouped(groups: seq<string>)
    requires AllGroups(groups)
    ensures SwapSeparators(Grouped(groups, ',')) == Grouped(groups, '.')
    decreases |groups|
  {
    if groups != [] {
      var init := groups[..|groups| - 1];
      var last := groups[|groups| - 1];
      GroupsInit(groups);
      SwapGrouped(init);
      SwapDigits(last);
      SwapAppend(Grouped(init, ',') + [','], last);
      SwapAppend(Grouped(init, ','), [',']);
    }
  }

  /** Exchanging the separators of the US layout gives the German layout. */
  lemma SwapLayout(r: Rendered)
    requires WellFormed(r)
    ensures SwapSeparators(UsText(r)) == GermanText(r)
  {
    var s := SignText(r.negative);
    SwapFour(s, r.lead, Grouped(r.groups, ','), PointFraction('.', r.frac));
    assert SwapSeparators(s) == s;
    SwapDigits(r.lead);
    SwapGrouped(r.groups);
    SwapPoint(r.frac);
  }

  lemma SwapFour(a: string, b: string, c: string, d: string)
    ensures SwapSeparators(a + b + c + d)
         == SwapSeparators(a) + SwapSeparators(b) + SwapSeparators(c) + SwapSeparators(d)
  {
    SwapAppend(a + b + c, d);
    SwapAppend(a + b, c);
    SwapAppend(a, b);
  }

  lemma SwapPoint(frac: string)
    requires AllDigits(frac)
    ensures SwapSeparators(PointFraction('.', frac)) == PointFraction(',', frac)
  {
    if frac != [] {
      SwapAppend(['.'], frac);
      SwapDigits(frac);
    }
  }

  /** `format_num` of a value whose US rendering is `r`. */
  function Format(r: Rendered, locale: Locale): (s: string)
    requires WellFormed(r)
    ensures locale == German ==> s == GermanText(r)
    ensures locale == Us ==> s == UsText(r)
  {
    var u := UsText(r);
    LayoutChars(r, ',', '.');
    NumberCharsStrip(u);
    SwapLayout(r);
    FormatNum(u, locale)
  }

  // ---------------------------------------------------------------------
  // Reading German text back

  /** German text goes through the German clean-up and then `float()`. */
  lemma GermanParse(r: Rendered)
    requires WellFormed(r)
    ensures ParseNum(GermanText(r), German) == ToFloat(CleanGerman(GermanText(r)))
  {
    var g := GermanText(r);
    LayoutChars(r, '.', ',');
    NumberCharsStrip(g);
    assert g[|SignText(r.negative)|] == r.lead[0];
  }

  lemma GroupedHasSeparator(groups: seq<string>, sep: char)
    requires groups != []
    ensures sep in Grouped(groups, sep)
  {
    var g := Grouped(groups[..|groups| - 1], sep);
    assert Grouped(groups, sep)[|g|] == sep;
  }

  lemma SubstFour(a: string, b: string, c: string, d: string, x: char, y: char)
    ensures Subst(a + b + c + d, x, y) == Subst(a, x, y) + Subst(b, x, y) + Subst(c, x, y) + Subst(d, x, y)
  {
    SubstAppend(a + b + c, d, x, y);
    SubstAppend(a + b, c, x, y);
    SubstAppend(a, b, x, y);
  }

  /** Both separators present: every `.` goes, the `,` becomes the point. */
  lemma GermanBothCase(r: Rendered)
    requires WellFormed(r) && r.groups != [] && r.frac != []
    ensures ParseNum(GermanText(r), German) == Ok(Value(r))
  {
    var g := GermanText(r);
    GroupedHasSeparator(r.groups, '.');
    assert ',' in PointFraction(',', r.frac);
    GermanParse(r);
    GermanBothSeparators(g);
    BothErased(r);
    BothSubst(r);
    LiteralReads(r);
  }

  /** Dropping the dots leaves sign, digits, `,` and the fraction. */
  lemma BothErased(r: Rendered)
    requires WellFormed(r)
    ensures Erase(GermanText(r), '.')
         == SignText(r.negative) + r.lead + Concat(r.groups) + PointFraction(',', r.frac)
  {
    DigitsNoSeparator(r.lead, '.');
    DigitsNoSeparator(r.frac, '.');
    EraseGrouped(r.groups, '.');
    EraseMiddle(SignText(r.negative), r.lead, Grouped(r.groups, '.'), PointFraction(',', r.frac), '.');
  }

  /** Then the `,` becomes the point, and the text is the literal. */
  lemma BothSubst(r: Rendered)
    requires WellFormed(r)
    ensures Subst(SignText(r.negative) + r.lead + Concat(r.groups) + PointFraction(',', r.frac), ',', '.')
         == Literal(r)
  {
    var c := Concat(r.groups);
    ConcatDigits(r.groups);
    DigitsNoSeparator(r.lead, ',');
    DigitsNoSeparator(c, ',');
    SubstLast(SignText(r.negative), r.lead, c, PointFraction(',', r.frac), ',', '.');
    SubstPoint(r.frac);
  }

  /** No groups, a fraction: the single `,` is the point when at most three
      digits follow it; otherwise `float()` meets the `,` and fails. */
  lemma GermanCommaCase(r: Rendered)
    requires WellFormed(r) && r.groups == [] && r.frac != []
    ensures |r.frac| <= 3 ==> ParseNum(GermanText(r), German) == Ok(Value(r))
    ensures |r.frac| > 3 ==> ParseNum(GermanText(r), German).Err?
  {
    if |r.frac| <= 3 {
      GermanCommaShort(r);
    } else {
      GermanCommaLong(r);
    }
  }

  lemma GermanCommaShort(r: Rendered)
    requires WellFormed(r) && r.groups == [] && r.frac != [] && |r.frac| <= 3
    ensures ParseNum(GermanText(r), German) == Ok(Value(r))
  {
    var g := GermanText(r);
    CommaShape(r);
    GermanCommaOnly(g);
    assert CleanGerman(g) == Subst(g, ',', '.');
    GermanParse(r);
    CommaRead(r);
  }

  lemma GermanCommaLong(r: Rendered)
    requires WellFormed(r) && r.groups == [] && |r.frac| > 3
    ensures ParseNum(GermanText(r), German).Err?
  {
    var g := GermanText(r);
    CommaShape(r);
    GermanCommaOnly(g);
    assert CleanGerman(g) == g;
    GermanParse(r);
    LayoutChars(r, '.', ',');
    NumberCharsStrip(g);
    ForeignCharRejected(g, ',');
    assert LiteralValue(Strip(g)) == None;
  }

  /** An ungrouped German text with a fraction has exactly one `,`, no `.`,
      and the fraction digits after the `,`. */
  lemma CommaShape(r: Rendered)
    requires WellFormed(r) && r.groups == [] && r.frac != []
    ensures var g := GermanText(r);
      && ',' in g && '.' !in g && Count(g, ',') == 1
      && |g| - LastIndex(g, ',') - 1 == |r.frac|
  {
    var a := SignText(r.negative) + r.lead;
    assert GermanText(r) == a + [','] + r.frac;
    DigitsNoSeparator(r.lead, ',');
    DigitsNoSeparator(r.lead, '.');
    DigitsNoSeparator(r.frac, ',');
    DigitsNoSeparator(r.frac, '.');
    OneSeparator(a, r.frac, ',', '.');
  }

  /** `a + [c] + b` holds `c` once, at index `|a|`, and no `d`. */
  lemma OneSeparator(a: string, b: string, c: char, d: char)
    requires c !in a && c !in b && d !in a && d !in b && c != d
    ensures var g := a + [c] + b;
      && c in g && d !in g && Count(g, c) == 1 && LastIndex(g, c) == |a|
  {
    LastIndexAt(a, b, c);
    CountAppend(a, [c], c);
    CountAppend(a + [c], b, c);
    assert Count([c], c) == 1 by {
      assert [c][..0] == [];
    }
  }

  lemma CommaRead(r: Rendered)
    requires WellFormed(r) && r.groups == [] && r.frac != []
    ensures ToFloat(Subst(GermanText(r), ',', '.')) == Ok(Value(r))
  {
    var s := SignText(r.negative);
    var p := PointFraction(',', r.frac);
    assert GermanText(r) == s + r.lead + Concat(r.groups) + p;
    DigitsNoSeparator(r.lead, ',');
    assert ',' !in s;
    SubstLast(s, r.lead, [], p, ',', '.');
    SubstPoint(r.frac);
    LiteralReads(r);
  }

  /** No fraction, no groups: no separator at all. */
  lemma GermanPlainCase(r: Rendered)
    requires WellFormed(r) && r.groups == [] && r.frac == []
    ensures ParseNum(GermanText(r), German) == Ok(Value(r))
  {
    var g := GermanText(r);
    assert g == SignText(r.negative) + r.lead;
    DigitsNoSeparator(r.lead, ',');
    DigitsNoSeparator(r.lead, '.');
    assert ',' !in g && '.' !in g;
    GermanParse(r);
    assert Literal(r) == g;
    LiteralReads(r);
  }

  /** Groups but no fraction: the last group is read as three decimals. */
  lemma GermanDotsCase(r: Rendered)
    requires WellFormed(r) && r.groups != [] && r.frac == []
    ensures WellFormed(Shifted(r))
    ensures ParseNum(GermanText(r), German) == Ok(Value(Shifted(r)))
  {
    GroupsInit(r.groups);
    GermanParse(r);
    DotsClean(r);
    LiteralReads(Shifted(r));
  }

  lemma GermanWholeMisread(r: Rendered)
    requires WellFormed(r) && r.groups != [] && r.frac == []
    ensures ParseNum(GermanText(r), German).Ok?
    ensures ParseNum(GermanText(r), German).value == Value(r) / 1000.0
  {
    GermanDotsCase(r);
    ShiftedValue(r);
  }

  /** `r` with its last thousands group moved behind the decimal point. */
  function Shifted(r: Rendered): Rendered
    requires r.groups != []
  {
    Rendered(r.negative, r.lead, r.groups[..|r.groups| - 1], r.groups[|r.groups| - 1])
  }

  /** With groups and no fraction, the clean-up turns the last `.` into the
      point: the text becomes the literal with the last group as decimals. */
  lemma DotsClean(r: Rendered)
    requires WellFormed(r) && r.groups != [] && r.frac == []
    ensures AllGroups(r.groups[..|r.groups| - 1]) && IsGroup(r.groups[|r.groups| - 1])
    ensures CleanGerman(GermanText(r)) == Literal(Shifted(r))
  {
    GroupsInit(r.groups);
    DotsCleanText(r);
    var sh := Shifted(r);
    var x := SignText(r.negative) + r.lead + Concat(sh.groups);
    assert Literal(sh) == x + PointFraction('.', sh.frac);
    PointAppend(x, sh.frac);
  }

  lemma PointAppend(x: string, f: string)
    requires f != []
    ensures x + PointFraction('.', f) == x + "." + f
  {
  }

  lemma DotsCleanText(r: Rendered)
    requires WellFormed(r) && r.groups != [] && r.frac == []
    ensures CleanGerman(GermanText(r))
         == SignText(r.negative) + r.lead + Concat(r.groups[..|r.groups| - 1]) + "." + r.groups[|r.groups| - 1]
  {
    var init := r.groups[..|r.groups| - 1];
    var last := r.groups[|r.groups| - 1];
    GroupsInit(r.groups);
    var prefix := SignText(r.negative) + r.lead + Grouped(init, '.');
    DotsShape(r);
    LastGroupAsFraction(prefix, last);
    DotsPrefixErased(r.negative, r.lead, init);
  }

  /** Only dots, and one to three characters after the last: that dot becomes the point. */
  lemma LastGroupAsFraction(prefix: string, last: string)
    requires ',' !in prefix + ['.'] + last && '.' !in last && 0 < |last| <= 3
    ensures CleanGerman(prefix + ['.'] + last) == Erase(prefix, '.') + "." + last
  {
    var g := prefix + ['.'] + last;
    LastIndexAt(prefix, last, '.');
    GermanDotsOnly(g);
    assert g[..|prefix|] == prefix;
    assert g[|prefix| + 1..] == last;
  }

  lemma DotsShape(r: Rendered)
    requires WellFormed(r) && r.groups != [] && r.frac == []
    ensures var init := r.groups[..|r.groups| - 1];
      var last := r.groups[|r.groups| - 1];
      && GermanText(r) == SignText(r.negative) + r.lead + Grouped(init, '.') + ['.'] + last
      && ',' !in GermanText(r) && '.' !in last
  {
    var init := r.groups[..|r.groups| - 1];
    var last := r.groups[|r.groups| - 1];
    GroupsInit(r.groups);
    DigitsNoSeparator(last, '.');
    DigitsNoSeparator(last, ',');
    DigitsNoSeparator(r.lead, ',');
    GroupedAbsent(init, '.', ',');
    assert GermanText(r) == SignText(r.negative) + r.lead + Grouped(init, '.') + ['.'] + last;
  }

  lemma DotsPrefixErased(negative: bool, lead: string, init: seq<string>)
    requires AllDigits(lead) && AllGroups(init)
    ensures Erase(SignText(negative) + lead + Grouped(init, '.'), '.') == SignText(negative) + lead + Concat(init)
  {
    var s := SignText(negative);
    EraseGrouped(init, '.');
    DigitsNoSeparator(lead, '.');
    EraseAppend(s + lead, Grouped(init, '.'), '.');
    EraseAppend(s, lead, '.');
    EraseAbsent(s, '.');
    EraseAbsent(lead, '.');
  }

  /** Reading the last group as decimals divides the value by a thousand. */
  lemma ShiftedValue(r: Rendered)
    requires WellFormed(r) && r.groups != [] && r.frac == []
    ensures WellFormed(Shifted(r))
    ensures Value(Shifted(r)) == Value(r) / 1000.0
  {
    var shifted := Shifted(r);
    var last := r.groups[|r.groups| - 1];
    GroupsInit(r.groups);
    var a := IntDigits(shifted);
    assert IntDigits(r) == a + last;
    ThreeDecimals(a, last);
    DecimalSign(r.negative, a + last, []);
    DecimalSign(r.negative, a, last);
    SignScale(r.negative, DecimalNumber(false, a, last), DecimalNumber(false, a + last, []));
  }

  /** Moving the last three digits behind the point divides by a thousand. */
  lemma ThreeDecimals(a: string, last: string)
    requires AllDigits(a) && IsGroup(last)
    ensures AllDigits(a + last)
    ensures DecimalNumber(false, a + last, []) == DecimalNumber(false, a, last) * 1000.0
  {
    DigitsValueAppend(a, last);
    assert Pow10(3) == 1000;
    assert DigitsValue([]) == 0;
  }

  lemma SignScale(negative: bool, m: real, n: real)
    requires n == m * 1000.0
    ensures (if negative then -m else m) == (if negative then -n else n) / 1000.0
  {
  }

  /** The German text reads back as its value except in two shapes: whole
      numbers with thousands groups, whose last group is taken for decimals,
      and ungrouped numbers with more than three decimals, which `float()`
      refuses. */
  predicate GermanReadable(r: Rendered) {
    if r.frac == [] then r.groups == [] else r.groups != [] || |r.frac| <= 3
  }

  lemma GermanRoundTrip(r: Rendered)
    requires WellFormed(r)
    ensures GermanReadable(r) ==> ParseNum(GermanText(r), German) == Ok(Value(r))
    ensures r.frac == [] && r.groups != [] ==>
      ParseNum(GermanText(r), German).Ok? && ParseNum(GermanText(r), German).value == Value(r) / 1000.0
    ensures r.groups == [] && |r.frac| > 3 ==> ParseNum(GermanText(r), German).Err?
  {
    if r.frac == [] {
      if r.groups == [] { GermanPlainCase(r); } else { GermanWholeMisread(r); }
    } else {
      if r.groups == [] { GermanCommaCase(r); } else { GermanBothCase(r); }
    }
  }

  /** `format_money`: two decimals, in the chosen convention. */
  function FormatMoney(r: Rendered, locale: Locale): (s: string)
    requires WellFormed(r) && |r.frac| == 2
    ensures s == Format(r, locale)
    ensures ParseNum(s, locale) == Ok(Value(r))
    ensures locale == Us ==> ParseNumUs(s) == Ok(Value(r))
  {
    UsRoundTrip(r);
    GermanRoundTrip(r);
    Format(r, locale)
  }
}

=== FILE: text.dfy ===
/**
 * The handful of Python `str` operations the number parser and formatter rely
 * on: `strip()`, `replace(pat, repl)`, `split(sep)`, `"".join(parts)` and
 * `lower()`, together with index-level characterisations of each.
 */
module Text {

  /** Python's `str.isspace()`: the characters `strip()` removes. */
  predicate IsSpace(c: char) {
    || c == ' '
    || '\t' <= c <= '\r'
    || '\U{1C}' <= c <= '\U{1F}'
    || c == '\U{85}' || c == '\U{A0}' || c == '\U{1680}'
    || '\U{2000}' <= c <= '\U{200A}'
    || c == '\U{2028}' || c == '\U{2029}' || c == '\U{202F}' || c == '\U{205F}' || c == '\U{3000}'
  }

  predicate AllSpace(s: string) {
    forall i :: 0 <= i < |s| ==> IsSpace(s[i])
  }

  /** Number of whitespace characters at the front of `s`. */
  function LeadingSpaces(s: string): (n: nat)
    ensures n <= |s|
    ensures forall i :: 0 <= i < n ==> IsSpace(s[i])
    ensures n < |s| ==> !IsSpace(s[n])
  {
    if s == [] || !IsSpace(s[0]) then 0 else 1 + LeadingSpaces(s[1..])
  }

  /** Number of whitespace characters at the back of `s`. */
  function TrailingSpaces(s: string): (n: nat)
    ensures n <= |s|
    ensures forall i :: |s| - n <= i < |s| ==> IsSpace(s[i])
    ensures n < |s| ==> !IsSpace(s[|s| - n - 1])
  {
    if s == [] || !IsSpace(s[|s| - 1]) then 0 else 1 + TrailingSpaces(s[..|s| - 1])
  }

  /** Python's `s.strip()`: the slice of `s` between its leading and its trailing whitespace. */
  function Strip(s: string): (r: string)
    ensures r == [] <==> AllSpace(s)
    ensures r != [] ==> !IsSpace(r[0]) && !IsSpace(r[|r| - 1])
  {
    var a := LeadingSpaces(s);
    var b := TrailingSpaces(s[a..]);
    StripShape(s, a, s[a..], b, s[a..|s| - b]);
    s[a..|s| - b]
  }

  /** What `Strip` drops is whitespace on either side of the slice it keeps. */
  lemma StripSlice(s: string)
    ensures var a, r := LeadingSpaces(s), Strip(s);
      && a + |r| <= |s| && r == s[a..a + |r|]
      && AllSpace(s[..a]) && AllSpace(s[a + |r|..])
  {
    var a := LeadingSpaces(s);
    var b := TrailingSpaces(s[a..]);
    var r := Strip(s);
    assert r == s[a..|s| - b];
    StripShape(s, a, s[a..], b, r);
  }

  lemma StripShape(s: string, a: nat, rest: string, b: nat, r: string)
    requires a <= |s| && rest == s[a..] && b <= |rest| && r == s[a..|s| - b]
    requires forall i :: 0 <= i < a ==> IsSpace(s[i])
    requires a < |s| ==> !IsSpace(s[a])
    requires forall i :: |rest| - b <= i < |rest| ==> IsSpace(rest[i])
    requires b < |rest| ==> !IsSpace(rest[|rest| - b - 1])
    ensures r == [] <==> AllSpace(s)
    ensures r != [] ==> !IsSpace(r[0]) && !IsSpace(r[|r| - 1])
    ensures a + |r| <= |s| && r == s[a..a + |r|]
    ensures AllSpace(s[..a]) && AllSpace(s[a + |r|..])
  {
    if r == [] {
      assert a == |s|;
    } else {
      assert r[0] == s[a];
      assert r[|r| - 1] == rest[|rest| - b - 1];
    }
    assert s[a + |r|..] == rest[|rest| - b..];
  }

  /** `Strip` removes exactly the surrounding whitespace and nothing of a core
      that neither starts nor ends with whitespace. */
  lemma StripCore(front: string, core: string, back: string)
    requires AllSpace(front) && AllSpace(back)
    requires core != [] ==> !IsSpace(core[0]) && !IsSpace(core[|core| - 1])
    ensures Strip(front + core + back) == core
  {
    var s := front + core + back;
    if core == [] {
      assert s == front + back;
      assert AllSpace(s);
    } else {
      assert s == front + (core + back);
      LeadingOf(front, core + back);
      assert s[|front|..] == core + back;
      TrailingOf(core, back);
      assert (core + back)[..|core|] == core;
    }
  }

  lemma {:induction false} LeadingOf(front: string, rest: string)
    requires AllSpace(front) && rest != [] && !IsSpace(rest[0])
    ensures LeadingSpaces(front + rest) == |front|
    decreases |front|
  {
    if front != [] {
      assert (front + rest)[1..] == front[1..] + rest;
      LeadingOf(front[1..], rest);
    }
  }

  lemma {:induction false} TrailingOf(rest: string, back: string)
    requires AllSpace(back) && rest != [] && !IsSpace(rest[|rest| - 1])
    ensures TrailingSpaces(rest + back) == |back|
    decreases |back|
  {
    if back == [] {
      assert rest + back == rest;
    } else {
      var p := back[..|back| - 1];
      assert (rest + back)[..|rest + back| - 1] == rest + p;
      TrailingOf(rest, p);
    }
  }

  /** A string without any whitespace is its own strip. */
  lemma StripNoSpace(s: string)
    requires forall i :: 0 <= i < |s| ==> !IsSpace(s[i])
    ensures Strip(s) == s
  {
    StripCore([], s, []);
    assert [] + s + [] == s;
  }

  /** Number of occurrences of `c` in `s`. */
  function Count(s: string, c: char): (n: nat)
    ensures n == 0 <==> c !in s
    ensures n <= |s|
  {
    if s == [] then 0
    else
      assert s == s[..|s| - 1] + [s[|s| - 1]];
      Count(s[..|s| - 1], c) + (if s[|s| - 1] == c then 1 else 0)
  }

  lemma CountAppend(a: string, b: string, c: char)
    ensures Count(a + b, c) == Count(a, c) + Count(b, c)
    decreases |b|
  {
    if b != [] {
      var b' := b[..|b| - 1];
      assert (a + b)[..|a + b| - 1] == a + b';
      CountAppend(a, b', c);
    } else {
      assert a + b == a;
    }
  }

  /** `s` with every `c` removed, keeping all other characters in order. */
  function Erase(s: string, c: char): (r: string)
    ensures c !in r
    ensures |r| == |s| - Count(s, c)
  {
    if s == [] then []
    else Erase(s[..|s| - 1], c) + (if s[|s| - 1] == c then [] else [s[|s| - 1]])
  }

  lemma {:induction false} EraseAppend(a: string, b: string, c: char)
    ensures Erase(a + b, c) == Erase(a, c) + Erase(b, c)
    decreases |b|
  {
    if b == [] {
      assert a + b == a;
    } else {
      var b' := b[..|b| - 1];
      var x := b[|b| - 1];
      var t := if x == c then [] else [x];
      assert (a + b)[..|a + b| - 1] == a + b';
      assert (a + b)[|a + b| - 1] == x;
      EraseAppend(a, b', c);
      assert Erase(a + b, c) == (Erase(a, c) + Erase(b', c)) + t;
      assert Erase(b, c) == Erase(b', c) + t;
      Regroup(Erase(a, c), Erase(b', c), t);
    }
  }

  lemma Regroup(x: string, y: string, z: string)
    ensures (x + y) + z == x + (y + z)
  {
  }

  /** Erasing from a one-character string. */
  lemma EraseOne(x: char, c: char)
    ensures Erase([x], c) == if x == c then [] else [x]
  {
    assert [x][..0] == [];
  }

  /** Erasing a character that does not occur changes nothing. */
  lemma {:induction false} EraseAbsent(s: string, c: char)
    requires c !in s
    ensures Erase(s, c) == s
  {
    if s != [] {
      assert s == s[..|s| - 1] + [s[|s| - 1]];
      EraseAbsent(s[..|s| - 1], c);
    }
  }

  /** Erasing keeps every other character present. */
  lemma EraseKeeps(s: string, c: char, x: char)
    requires x != c && x in s
    ensures x in Erase(s, c)
  {
    var p := s[..|s| - 1];
    if s[|s| - 1] != x {
      assert x in p;
      EraseKeeps(p, c, x);
    }
  }

  /** Erasing never introduces a character. */
  lemma EraseSubset(s: string, c: char, x: char)
    requires x in Erase(s, c)
    ensures x in s && x != c
  {
    var p := s[..|s| - 1];
    if x in Erase(p, c) {
      EraseSubset(p, c, x);
      var i :| 0 <= i < |p| && p[i] == x;
      assert s[i] == x;
    }
  }

  /** `Erase` leaves nothing exactly when the string held nothing but `c`. */
  lemma EraseEmpty(s: string, c: char)
    ensures Erase(s, c) == [] <==> forall i :: 0 <= i < |s| ==> s[i] == c
  {
    if s != [] {
      var p := s[..|s| - 1];
      EraseEmpty(p, c);
      assert forall i :: 0 <= i < |p| ==> p[i] == s[i];
    }
  }

  /** Every `c` in `s` turned into `d`, position by position. */
  function Subst(s: string, c: char, d: char): (r: string)
    ensures |r| == |s|
    ensures forall i :: 0 <= i < |s| ==> r[i] == (if s[i] == c then d else s[i])
  {
    seq(|s|, i requires 0 <= i < |s| => if s[i] == c then d else s[i])
  }

  lemma SubstAppend(a: string, b: string, c: char, d: char)
    ensures Subst(a + b, c, d) == Subst(a, c, d) + Subst(b, c, d)
  {
  }

  lemma SubstAbsent(s: string, c: char, d: char)
    requires c !in s
    ensures Subst(s, c, d) == s
  {
  }

  /** Python's `s.replace(pat, repl)` for a non-empty `pat`: scanning from the
      left, each occurrence of `pat` that does not overlap an earlier one is
      replaced by `repl`. */
  function ReplaceAll(s: string, pat: string, repl: string): string
    requires pat != []
    decreases |s|
  {
    if |s| < |pat| then s
    else if s[..|pat|] == pat then repl + ReplaceAll(s[|pat|..], pat, repl)
    else [s[0]] + ReplaceAll(s[1..], pat, repl)
  }

  /** Replacing a single character works character by character. */
  lemma ReplaceCharStep(s: string, c: char, repl: string)
    requires s != []
    ensures ReplaceAll(s, [c], repl)
         == (if s[0] == c then repl else [s[0]]) + ReplaceAll(s[1..], [c], repl)
  {
    assert s[..1] == [s[0]];
  }

  lemma {:induction false} ReplaceCharAppend(a: string, b: string, c: char, repl: string)
    ensures ReplaceAll(a + b, [c], repl) == ReplaceAll(a, [c], repl) + ReplaceAll(b, [c], repl)
    decreases |a|
  {
    if a == [] {
      assert a + b == b;
    } else {
      var h := if a[0] == c then repl else [a[0]];
      var ra, rb := ReplaceAll(a[1..], [c], repl), ReplaceAll(b, [c], repl);
      ReplaceCharStep(a + b, c, repl);
      ReplaceCharStep(a, c, repl);
      assert (a + b)[0] == a[0];
      assert (a + b)[1..] == a[1..] + b;
      ReplaceCharAppend(a[1..], b, c, repl);
      assert ReplaceAll(a + b, [c], repl) == h + (ra + rb);
      assert h + (ra + rb) == (h + ra) + rb;
    }
  }

  lemma {:induction false} ReplaceCharAbsent(s: string, c: char, repl: string)
    requires c !in s
    ensures ReplaceAll(s, [c], repl) == s
    decreases |s|
  {
    if s != [] {
      ReplaceCharStep(s, c, repl);
      ReplaceCharAbsent(s[1..], c, repl);
    }
  }

  /** `s.replace(c, "")` is `Erase`. */
  lemma {:induction false} ReplaceIsErase(s: string, c: char)
    ensures ReplaceAll(s, [c], []) == Erase(s, c)
    decreases |s|
  {
    if s != [] {
      var p := s[..|s| - 1];
      var x := s[|s| - 1];
      assert s == p + [x];
      ReplaceCharAppend(p, [x], c, []);
      ReplaceCharStep([x], c, []);
      assert [x][1..] == [];
      ReplaceIsErase(p, c);
    }
  }

  /** `s.replace(c, d)` for one-character strings is `Subst`. */
  lemma {:induction false} ReplaceIsSubst(s: string, c: char, d: char)
    ensures ReplaceAll(s, [c], [d]) == Subst(s, c, d)
    decreases |s|
  {
    if s != [] {
      ReplaceCharStep(s, c, [d]);
      ReplaceIsSubst(s[1..], c, d);
      assert s == [s[0]] + s[1..];
      SubstAppend([s[0]], s[1..], c, d);
    }
  }

  /** Index of the last `c` in `s`. */
  function LastIndex(s: string, c: char): (k: nat)
    requires c in s
    ensures k < |s| && s[k] == c
    ensures c !in s[k + 1..]
  {
    if s[|s| - 1] == c then |s| - 1
    else
      var p := s[..|s| - 1];
      assert c in p by {
        var i :| 0 <= i < |s| && s[i] == c;
        assert p[i] == c;
      }
      var k := LastIndex(p, c);
      assert s[k + 1..] == p[k + 1..] + [s[|s| - 1]];
      k
  }

  /** The last `c` of `a + [c] + b` is the one between them when `b` holds none. */
  lemma LastIndexAt(a: string, b: string, c: char)
    requires c !in b
    ensures c in a + [c] + b
    ensures LastIndex(a + [c] + b, c) == |a|
  {
    var s := a + [c] + b;
    assert s[|a|] == c;
    var k := LastIndex(s, c);
    assert forall i :: |a| < i < |s| ==> s[i] == b[i - |a| - 1];
    assert k <= |a|;
  }

  /** Python's `s.split(sep)`: the pieces between the separators, `Count(s, sep) + 1` of them. */
  function Split(s: string, sep: char): (parts: seq<string>)
    ensures |parts| == Count(s, sep) + 1
  {
    if s == [] then [[]]
    else
      var init := Split(s[..|s| - 1], sep);
      var c := s[|s| - 1];
      if c == sep then init + [[]]
      else init[..|init| - 1] + [init[|init| - 1] + [c]]
  }

  /** Python's `"".join(parts)`. */
  function Join(parts: seq<string>): string {
    if parts == [] then [] else Join(parts[..|parts| - 1]) + parts[|parts| - 1]
  }

  lemma JoinTwo(a: string, b: string)
    ensures Join([a, b]) == a + b
  {
    calc {
      Join([a, b]);
      Join([a, b][..1]) + b;
      { assert [a, b][..1] == [a]; }
      Join([a]) + b;
      { assert [a][..0] == []; }
      Join([]) + a + b;
      a + b;
    }
  }

  /** Splitting and joining with nothing in between just drops the separators. */
  lemma {:induction false} JoinSplit(s: string, sep: char)
    ensures Join(Split(s, sep)) == Erase(s, sep)
  {
    if s != [] {
      var p := s[..|s| - 1];
      var c := s[|s| - 1];
      var init := Split(p, sep);
      JoinSplit(p, sep);
      if c == sep {
        assert (init + [[]])[..|init|] == init;
      } else {
        var n := |init|;
        var parts := init[..n - 1] + [init[n - 1] + [c]];
        assert parts[..n - 1] == init[..n - 1];
        assert Join(init) == Join(init[..n - 1]) + init[n - 1];
      }
    }
  }

  /** A string with no separator splits into itself. */
  lemma {:induction false} SplitAbsent(s: string, sep: char)
    requires sep !in s
    ensures Split(s, sep) == [s]
  {
    if s != [] {
      var p := s[..|s| - 1];
      assert sep !in p by {
        forall i | 0 <= i < |p| ensures p[i] != sep {
          assert p[i] == s[i];
        }
      }
      SplitAbsent(p, sep);
      assert p + [s[|s| - 1]] == s;
    }
  }

  /** The last piece of a split is what follows the last separator; the
      pieces before it are the split of what precedes it. */
  lemma {:induction false} SplitAtLast(s: string, sep: char)
    requires sep in s
    ensures Split(s, sep) == Split(s[..LastIndex(s, sep)], sep) + [s[LastIndex(s, sep) + 1..]]
  {
    if s[|s| - 1] == sep {
      SplitAtLastSep(s, sep);
    } else {
      var p := s[..|s| - 1];
      var k := LastIndex(s, sep);
      assert k == LastIndex(p, sep);
      SplitAtLast(p, sep);
      assert p[..k] == s[..k];
      assert p[k + 1..] == s[k + 1..|s| - 1];
      SplitAtLastOther(s, sep, k);
    }
  }

  lemma SplitAtLastSep(s: string, sep: char)
    requires s != [] && s[|s| - 1] == sep
    ensures Split(s, sep) == Split(s[..LastIndex(s, sep)], sep) + [s[LastIndex(s, sep) + 1..]]
  {
    var k := LastIndex(s, sep);
    assert k == |s| - 1;
    assert s[k + 1..] == [];
    assert Split(s, sep) == Split(s[..k], sep) + [[]];
  }

  lemma SplitAtLastOther(s: string, sep: char, k: nat)
    requires s != [] && s[|s| - 1] != sep && k < |s| - 1 && sep in s && k == LastIndex(s, sep)
    requires Split(s[..|s| - 1], sep) == Split(s[..k], sep) + [s[k + 1..|s| - 1]]
    ensures Split(s, sep) == Split(s[..LastIndex(s, sep)], sep) + [s[LastIndex(s, sep) + 1..]]
  {
    var c := s[|s| - 1];
    var a, last := Split(s[..k], sep), s[k + 1..|s| - 1];
    SplitLastChar(s, sep);
    ExtendLastPart(Split(s[..|s| - 1], sep), a, last, c);
    SliceSnoc(s, k + 1);
  }

  lemma SliceSnoc(s: string, i: nat)
    requires i < |s|
    ensures s[i..|s| - 1] + [s[|s| - 1]] == s[i..]
  {
  }

  /** Splitting after one more non-separator character extends the last piece. */
  lemma SplitLastChar(s: string, sep: char)
    requires s != [] && s[|s| - 1] != sep
    ensures var init := Split(s[..|s| - 1], sep);
      Split(s, sep) == init[..|init| - 1] + [init[|init| - 1] + [s[|s| - 1]]]
  {
  }

  lemma ExtendLastPart(init: seq<string>, a: seq<string>, last: string, c: char)
    requires init == a + [last]
    ensures init[..|init| - 1] + [init[|init| - 1] + [c]] == a + [last + [c]]
  {
    assert init[..|init| - 1] == a;
  }

  /** A string is what precedes index `k`, the character there, and what follows. */
  lemma SplitAround(s: string, k: nat)
    requires k < |s|
    ensures s == s[..k] + [s[k]] + s[k + 1..]
  {
  }

  /** The last piece of a split is what follows the last separator. */
  lemma SplitLastPart(s: string, sep: char)
    requires sep in s
    ensures var parts := Split(s, sep); parts[|parts| - 1] == s[LastIndex(s, sep) + 1..]
  {
    SplitAtLast(s, sep);
  }

  /** Python's `str.lower()` restricted to ASCII letters. */
  function LowerChar(c: char): char {
    if 'A' <= c <= 'Z' then (c as int + 32) as char else c
  }

  function Lower(s: string): (r: string)
    ensures |r| == |s|
    ensures forall i :: 0 <= i < |s| ==> r[i] == LowerChar(s[i])
  {
    seq(|s|, i requires 0 <= i < |s| => LowerChar(s[i]))
  }
}
